=== FILE: README.md ===
# Process designer: a Dafny model

The application builds a swim-lane process model and turns it into a
Mermaid flowchart. A model has a name, a goal, a trigger, lanes (teams or
roles) and ordered steps, and each step lies on one lane. There are two ways
to fill it in:

- the **direct editor** (`App.tsx`): lanes and steps are added, edited,
  removed and reordered by drag and drop. `generateDiagram` then validates
  the data and emits the flowchart.
- the **wizard** (`questions.ts`, `Wizard.tsx`): a fixed table of questions.
  Each has a validator, an answer applier and a rule that picks the next
  question. The happy-path question is answered with an `{Action, Lane}`
  table editor that repairs rows whose lane has disappeared.

The label sanitiser `esc` (`utils/index.ts`) is used for every label the
generator emits.

The Dafny project models these parts as pure functions over immutable
datatypes:

| file | module | models |
|---|---|---|
| `results.dfy` | `Results` | `Option` and `Result` |
| `seqs.dfy` | `Seqs` | `filter`, `splice`, first/last search, subsequences |
| `text.dfy` | `Text` | `trim`, `replace`, `startsWith`, `join` |
| `sanitize.dfy` | `Sanitize` | `esc` |
| `types.dfy` | `Types` | `Lane`, `Step`, the wizard's raw answers, `ProcessModel` |
| `editor.dfy` | `DirectEditor` | the editor's lane, step and drag handlers |
| `diagram.dfy` | `Diagram` | `generateDiagram`: the seven checks and the emitted lines |
| `questions.dfy` | `Questions` | the question table, its validators, appliers and routes, and one submission |
| `table_input.dfy` | `TableInput` | `TableInput`: the lane fix-up, `add`, `upd`, `del` |
| `end_to_end.dfy` | `EndToEnd` | the wizard's output fed to the generator; two worked examples |

Every random id (`uid`) comes from a caller-supplied id, or from an `Ids`
supply that maps a position to an id. A React state update becomes the new
state returned by a function. A question's `onAnswer` mutates its context in
the source; here it returns the new context.

## Model

| member | source | states |
|---|---|---|
| Sanitize.Esc | src/utils/index.ts:2-10 | The result contains no `[`, `]`, `<`, `>` or newline, has exactly twice as many backslashes as the input, and has no leading or trailing whitespace |
| Sanitize.EscIsPerCharacter | src/utils/index.ts:3-10 | The six chained `replace` passes equal one per-character substitution followed by `trim` |
| Sanitize.SubstituteAppend | src/utils/index.ts:4-9 | The replacement chain distributes over concatenation |
| Sanitize.SubstituteChar | src/utils/index.ts:4-9 | On one character the chain gives `\\` for `\`, a space for a newline, `(`/`)` for brackets, `&lt;`/`&gt;` for angle brackets, and the character itself otherwise |
| Sanitize.EscFixpoint | src/utils/index.ts:2-10 | A trimmed string with none of the six special characters is left unchanged |
| Sanitize.EscIdempotentIff | src/utils/index.ts:2-10 | Escaping twice gives the same as escaping once exactly when the input has no backslash |
| Text.Trim | src/utils/index.ts:10 | `trim`: the result is a middle slice of the input with only whitespace cut off its two ends; it is trimmed, is empty exactly when the input is all whitespace, and an already trimmed string is unchanged |
| Text.TrimIsStrip | src/utils/index.ts:10 | Cutting leading and then trailing whitespace leaves a middle slice, and everything cut off is whitespace |
| Text.TrimKeeps | src/utils/index.ts:10 | Trimming removes only whitespace: every other character keeps its count, and no character is added |
| Text.TrimIdempotent | src/utils/index.ts:10 | Trimming twice is trimming once |
| Text.ReplaceMembers | src/utils/index.ts:4 | After replacing every `c` by `rep`, a character is present exactly when it was present and is not `c`, or when `c` was present and the character is in `rep` |
| Text.ReplaceAppend | src/utils/index.ts:4 | A global replace distributes over concatenation |
| Text.ReplaceAbsent | src/utils/index.ts:4 | Replacing a character that does not occur changes nothing |
| Text.Join | src/wizard/questions.ts:146 | `join`: no items give the empty string and one item gives itself; with two or more, the result is the first item, the separator, then the join of the rest |
| Text.JoinMembers | src/wizard/questions.ts:146 | A joined string holds exactly the items' characters, plus the separator's when there are at least two items |
| Seqs.Filter | src/App.tsx:34-35 | `filter` keeps exactly the elements that pass, each with its multiplicity, and drops none that pass |
| Seqs.FilterIsSubseq | src/App.tsx:34-35 | `filter` keeps the original order |
| Seqs.RemoveAt | src/App.tsx:62 | `splice(i, 1)` shifts the later elements down by one and removes exactly one copy of `s[i]` |
| Seqs.InsertAt | src/App.tsx:63 | `splice(i, 0, x)`: `x` lands at `i`, earlier elements stay, later ones shift up by one, and `x` is the only element added |
| Seqs.RemoveAfterInsert | src/App.tsx:62-63 | Removing at the insertion point undoes an insertion |
| Seqs.Move | src/App.tsx:61-63 | The moved element lands at the target, removing it there gives the same list as removing it at the source (so the others keep their order), and the list is a permutation of the old one |
| Seqs.MoveToSelf | src/App.tsx:60 | Moving an element onto its own position changes nothing |
| Seqs.FirstFailing | src/wizard/questions.ts:103-108 | The loop's stopping index: every earlier element passes and the element found fails |
| Seqs.LastWhere | src/wizard/questions.ts:115 | The last index satisfying the predicate, or `None` exactly when no element does |
| DirectEditor.AddLane | src/App.tsx:25-30 | A non-blank input appends one lane, named by the trimmed input, with the fresh id; a blank input changes nothing; nothing but the lanes changes |
| DirectEditor.AddLaneKeepsInvariants | src/App.tsx:25-30 | With a fresh id, adding a lane keeps lane ids distinct and every step's lane reference valid |
| DirectEditor.OtherLanes | src/App.tsx:34 | Keeps exactly the lanes with another id, each as often as before, in their order |
| DirectEditor.StepsOffLane | src/App.tsx:35 | Keeps exactly the steps on other lanes, each as often as before, in their order; with no step on the lane it keeps every step |
| DirectEditor.RemoveLane | src/App.tsx:33-36 | The lane and exactly the steps on it are removed; every other lane and step stays, with its multiplicity and in order; with no step on the lane the steps are unchanged; nothing else changes |
| DirectEditor.RemoveLaneKeepsReferences | src/App.tsx:33-36 | Because steps are removed with their lane, no step is left pointing at a missing lane |
| DirectEditor.RemoveLaneUndoesAddLane | src/App.tsx:25-36 | Removing a lane just added under a fresh id restores the previous state |
| DirectEditor.AddStep | src/App.tsx:41-45 | With a lane present, one step with an empty label on the first lane is appended; with no lane nothing happens |
| DirectEditor.AddStepKeepsReferences | src/App.tsx:41-45 | A new step always refers to an existing lane |
| DirectEditor.RemoveStep | src/components/StepList.tsx:70 | Exactly the steps with the given id are removed; every other step stays, with its multiplicity and in order; nothing else changes |
| DirectEditor.RemoveStepUndoesAddStep | src/components/StepList.tsx:70 | Removing a step just added under a fresh id restores the previous state |
| DirectEditor.Merge | src/App.tsx:48 | `{...s, ...patch}`: each field the patch carries wins, every other field keeps the step's value |
| DirectEditor.MergeIdempotent | src/App.tsx:48 | Applying the same patch twice is applying it once, and an empty patch changes nothing |
| DirectEditor.UpdateStep | src/App.tsx:47-49 | Step `i` becomes `{...s, ...patch}`, every other step is unchanged, and an index outside the list changes nothing |
| DirectEditor.UpdateStepLabelUndo | src/App.tsx:47-49 | Writing the old label back after a label edit restores the state |
| DirectEditor.UpdateStepKeepsReferences | src/App.tsx:47-49 | A patch whose lane id (if any) names an existing lane keeps every reference valid |
| DirectEditor.DragStart | src/App.tsx:54 | The dragged index is recorded and nothing else changes |
| DirectEditor.Drop | src/App.tsx:59-68 | A drop onto another index moves the dragged step there: the other steps keep their relative order and the list is a permutation of the old one. With nothing dragged, or a drop onto itself, the steps stay. The drag ends either way |
| DirectEditor.DropKeepsReferences | src/App.tsx:59-68 | Reordering never breaks a lane reference |
| DirectEditor.DragEnd | src/App.tsx:69-72 | The drag is abandoned and no step moves |
| Diagram.Collect | src/App.tsx:77-104 | Pushing the message of each failed check gives the failed messages in check order; the list is empty exactly when no check failed |
| Diagram.Checks | src/App.tsx:79-104 | The source's checks, including the two `filter(...).length > 0` counts, agree with the direct statement of the seven conditions |
| Diagram.BlankLabelsFound | src/App.tsx:101-103 | The blank-label count is positive exactly when some step's trimmed label is empty |
| Diagram.DanglingFound | src/App.tsx:100-104 | The bad-reference count is positive exactly when some step's lane id is not a lane's id |
| Diagram.MessagesDistinct | src/App.tsx:79-104 | The seven messages are pairwise different, so the error list identifies the failed checks |
| Diagram.Validate | src/App.tsx:75-104 | Each message is in the error list exactly when its check fails, in check order; the list is empty exactly when the data is valid |
| Diagram.LaneSteps | src/App.tsx:122-124 | A lane's group holds exactly the steps whose lane id is the lane's id, each as often as in the list, in global order |
| Diagram.Comment | src/App.tsx:130 | The comment line is `%% `, the escaped name, ` \| Goal: `, the escaped goal and ` \| Trigger: `, and ends with the escaped trigger, with nothing in between (the length is exactly that of the five parts); every part being escaped, it holds no line break |
| Diagram.SubgraphLine | src/App.tsx:134 | `subgraph`, the lane id, then the lane's escaped name between `["` and `"]`; for an id without `]` or line breaks, the name can neither close the bracket early nor break the line |
| Diagram.NodeLine | src/App.tsx:137 | The step id, then the step's escaped label between `["` and `"]`; for an id without `]` or line breaks, the label can neither close the bracket early nor break the line |
| Diagram.EdgeLine | src/App.tsx:147 | The first step's id, ` --> `, then the second step's id; a single line when the ids are |
| Diagram.Blocks | src/App.tsx:133-140 | The lane blocks take two lines per lane plus one per grouped step (where each line sits is stated by the rows below) |
| Diagram.GroupedAppend | src/App.tsx:122-124 | Grouping the lanes of `a + b` gives the grouping of `a`, then that of `b` |
| Diagram.BlocksAppend | src/App.tsx:133-140 | The blocks of lanes `a + b` are those of `a`, then those of `b` |
| Diagram.SplitGrouped | src/App.tsx:122-124 | The grouping is that of the lanes before `k`, then lane `k`'s steps, then that of the lanes after |
| Diagram.SplitBlocks | src/App.tsx:133-140 | The blocks are those of the lanes before `k`, then lane `k`'s block, then those of the lanes after |
| Diagram.FrontBlocks | src/App.tsx:133-140 | The blocks of the first `k` lanes take `Offset(k)` lines: two per lane plus their grouped steps |
| Diagram.BlockAt | src/App.tsx:133-140 | Lane `k`'s block opens at `Offset(k)` with its `subgraph` line and closes with `end` at `Offset(k + 1) - 1`, its step count plus two lines later |
| Diagram.BlocksEnd | src/App.tsx:133-140 | The last lane's block ends exactly where the block lines end |
| Diagram.GroupedAt | src/App.tsx:122-124 | Lane `k`'s `j`-th step sits in the grouping after the grouped steps of the earlier lanes |
| Diagram.EmittedNode | src/App.tsx:133-138 | The line at `Offset(k) + 1 + j` is the node line of that grouped step, so the emitted node lines follow the grouping in order |
| Diagram.Edges | src/App.tsx:144-148 | One edge per consecutive pair of steps, in list order |
| Diagram.LinesFront | src/App.tsx:126-140 | The output starts with the header, then the comment line, then the lane blocks |
| Diagram.LinesEdges | src/App.tsx:144-148 | The edge chain closes the output |
| Diagram.LinesCount | src/App.tsx:122-148 | With distinct lane ids and valid references, the output has 2·lanes + 2·steps + 1 lines |
| Diagram.GroupedCount | src/App.tsx:122-124 | A step is emitted once for each lane whose id it carries |
| Diagram.GroupedIsPermutation | src/App.tsx:122-139 | With distinct lane ids and valid references, the grouping (whose order the node lines follow, by `EmittedNode`) is a permutation of the steps: each step is emitted exactly once |
| Diagram.Generate | src/App.tsx:75-150 | A failure (carrying the full error list, which is non-empty) exactly when a check fails; otherwise the header, comment, lane blocks and edge chain, laid out as above |
| Questions.ItemTexts | src/wizard/questions.ts:88 | An array of strings gives its strings, a row table "[object Object]" per row, and anything else nothing |
| Questions.Str | src/wizard/questions.ts:146 | `String(v)`: a string is itself, a missing value is "undefined", and an array is its element texts joined with commas (so "" when empty) |
| Questions.StrOr | src/wizard/questions.ts:52 | `String(v \|\| "")`: a missing answer reads as "", anything else as `String(v)` |
| Questions.TableRows | src/wizard/questions.ts:100 | A row table gives its rows, an array of strings one blank row per element, and anything else no rows |
| Questions.ValidateText | src/wizard/questions.ts:52 | "Required" exactly when `String(v \|\| "")` trims to empty |
| Questions.ValidateLanes | src/wizard/questions.ts:85-86 | Accepts exactly a non-empty array |
| Questions.CheckRows | src/wizard/questions.ts:103-109 | The row loop returns nothing exactly when every row has a non-blank Action and an existing lane name; otherwise it returns one of the two row messages |
| Questions.CheckRowsReportsFirst | src/wizard/questions.ts:103-108 | The first failing row decides the message |
| Questions.ValidateHappy | src/wizard/questions.ts:99-110 | "Add at least one step" for no rows; otherwise the row loop's answer; accepts exactly a non-empty table whose rows all pass |
| Questions.HappyReportsFirst | src/wizard/questions.ts:101-108 | A non-empty table is rejected with the complaint about its first failing row |
| Questions.ApplyName | src/wizard/questions.ts:53-55 | The name becomes the trimmed answer and nothing else changes |
| Questions.ApplyGoal | src/wizard/questions.ts:64-66 | The goal becomes the trimmed answer and nothing else changes |
| Questions.ApplyTrigger | src/wizard/questions.ts:75-77 | The trigger becomes the trimmed answer and nothing else changes |
| Questions.LaneNamesOfSpec | src/wizard/questions.ts:88 | The lane names are non-blank and trimmed, keep the answer's order, and keep each non-blank trimmed entry as often as it was given |
| Questions.FreshLanes | src/wizard/questions.ts:89 | One lane per name, in order, the k-th with the k-th fresh id |
| Questions.ApplyLanesSpec | src/wizard/questions.ts:87-90 | The lanes are replaced by fresh lanes named after the answer; nothing else changes |
| Questions.LastIdNamed | src/wizard/questions.ts:115 | `new Map(...).get(name)`: the id of the last lane with that name, or none exactly when no lane has it |
| Questions.ResolveLane | src/wizard/questions.ts:115-120 | `byName.get(name) \|\| fallbackLaneId`: the id of the last lane with that name when there is one and it is non-empty, otherwise the first lane's id; the id is always one of the lanes' |
| Questions.ResolveLaneDuplicateName | src/wizard/questions.ts:115 | Example: with two lanes named alike, a row naming them goes to the later lane |
| Questions.LanesOrGeneral | src/wizard/questions.ts:112-114 | With no lanes, a single "General" lane is created; otherwise the lanes are kept |
| Questions.ApplyHappy | src/wizard/questions.ts:111-127 | One step per row, in row order: the row's trimmed Action, the k-th fresh step id, and the resolved lane. Every step refers to a lane, and only lanes and steps change |
| Questions.ApplyMetrics | src/wizard/questions.ts:135-137 | The metrics become the submitted array, or an empty one for a non-array; nothing else changes |
| Questions.ApplyMetricsIdempotent | src/wizard/questions.ts:135-137 | What the applier stores is always an array, so submitting it again leaves the context unchanged |
| Questions.NextId | src/wizard/questions.ts:146 | A fixed route is followed as is; the review goes on exactly when `String(v)` starts with "Yes" |
| Questions.Submit | src/wizard/questions.ts:6-14 | The answer is rejected exactly when the validator returns a message, and the rejection carries that message; otherwise the new context is the applier's result (the context itself when there is no applier) and the route is followed |
| Questions.TableChain | src/wizard/questions.ts:46-147 | The seven questions in order, each fixed route leading to the next question, and the review leading to "generate" or back to "name" |
| Questions.RoutesStayInTable | src/wizard/questions.ts:46-147 | Every accepted answer leads to a question of the table or to generation |
| Questions.ReviewRoute | src/wizard/questions.ts:140-147 | The review never rejects and changes nothing; it goes to generation exactly for a "Yes…" answer |
| Questions.NameQuestion | src/wizard/questions.ts:47-57 | Rejects exactly the blank answers, with "Required"; an accepted answer sets the name and goes to "goal" |
| Questions.GoalQuestion | src/wizard/questions.ts:58-68 | Rejects exactly the blank answers, with "Required"; an accepted answer sets the goal and goes to "trigger" |
| Questions.TriggerQuestion | src/wizard/questions.ts:69-79 | Rejects exactly the blank answers, with "Required"; an accepted answer sets the trigger and goes to "lanes" |
| Questions.LanesQuestion | src/wizard/questions.ts:80-92 | Rejects exactly the non-arrays and empty arrays, with "Add at least one lane"; an accepted answer replaces the lanes and goes to "happy" |
| Questions.HappyQuestion | src/wizard/questions.ts:93-129 | Rejects exactly what the happy validator rejects, with its message; an accepted answer builds the steps and goes to "metrics" |
| Questions.MetricsQuestion | src/wizard/questions.ts:130-139 | Accepts every answer, records it, and goes to "review" |
| Questions.HappyAcceptedNeedsLanes | src/wizard/questions.ts:99-114 | An accepted happy-path answer implies lanes exist, so the "General" fallback never runs after validation |
| Questions.HappyAcceptedNoFallback | src/wizard/questions.ts:99-127 | After an accepted answer (with non-empty lane ids), the lanes are kept, and every step has its row's non-blank trimmed Action and lies on a lane named as its row says |
| Questions.AcceptedStep | src/wizard/questions.ts:103-126 | The same, for one step |
| TableInput.RowsIn | src/wizard/Wizard.tsx:10 | A non-array value reads as no rows |
| TableInput.SafeLane | src/wizard/Wizard.tsx:11 | The first lane, or "" when there are none |
| TableInput.FixRows | src/wizard/Wizard.tsx:16-21 | With lanes, a row whose lane is not listed moves to the first lane and nothing else changes; without lanes the rows stay. Afterwards every row's lane is listed, and already valid rows are untouched |
| TableInput.FixRowsIdempotent | src/wizard/Wizard.tsx:16-23 | Fixing twice is fixing once, so the effect does not loop |
| TableInput.FixUp | src/wizard/Wizard.tsx:15-25 | The effect emits rows exactly when lanes exist and some row's lane is not listed; what it emits is the fixed rows, so all valid and as many as before |
| TableInput.FixedRowsPassLaneCheck | src/wizard/Wizard.tsx:15-25 | After the fix-up, the happy validator's row check accepts exactly when no Action is blank |
| TableInput.AddRow | src/wizard/Wizard.tsx:27-31 | Appends a row with a blank Action on the first lane; valid rows stay valid |
| TableInput.SetCell | src/wizard/Wizard.tsx:34 | `{...r, [key]: val}`: the named column gets the value and the other column keeps its value |
| TableInput.UpdRow | src/wizard/Wizard.tsx:33-34 | Row `i` gets the new cell value, every other row is unchanged, and an index outside the table changes nothing |
| TableInput.UpdRowUndo | src/wizard/Wizard.tsx:33-34 | Writing the old cell value back restores the rows |
| TableInput.UpdRowKeepsLanesValid | src/wizard/Wizard.tsx:33-34 | Choosing a listed lane keeps every row valid |
| TableInput.DelRow | src/wizard/Wizard.tsx:36 | Removes exactly row `i`, keeping the others in order; an index outside the table changes nothing |
| TableInput.DelRowUndoesAddRow | src/wizard/Wizard.tsx:27-36 | Deleting the row just added gives back the rows before |
| EndToEnd.WizardModelPassesChecks | src/wizard/questions.ts:46-127 | Whatever the starting context, accepted answers for name, goal, trigger, lanes and happy path give a model that passes all seven generator checks, so a diagram is emitted |
| EndToEnd.MetaAnswered | src/wizard/questions.ts:46-79 | After the first three accepted answers, name, goal and trigger are all non-empty |
| EndToEnd.MetaKept | src/wizard/questions.ts:80-127 | The lanes and happy-path appliers leave name, goal and trigger alone |
| EndToEnd.HappyAcceptedPassesChecks | src/wizard/questions.ts:99-127 | After an accepted happy-path answer there are lanes and steps, every label is non-blank, and every step refers to a lane |
| EndToEnd.GroupingExample | src/App.tsx:122-148 | Worked example: with two lanes and three steps, nodes are grouped lane by lane, while edges follow the global step order across lanes |
| EndToEnd.ErrorExample | src/App.tsx:79-112 | Worked example: a missing trigger and a blank label give exactly those two messages, in check order, and no diagram |

## Left out

- `uid` and `Math.random`: ids are parameters, or an `Ids` supply that maps a position to an id. Freshness is a precondition where a property needs it.
- Rendering: `MermaidDiagram` and the `mermaidSrc`, `errors` and `isGenerated` state are not modelled. `Generate` returns the lines; the final `lines.join("\n")` is not modelled.
- The `touched` flags, `markTouched` and the form components (`MetaForm`, `LaneList`, `StepList` apart from its remove button, `QuestionUI`) are not modelled. They only display state or feed the handlers modelled here.
- `overIndex` and `handleDragOver` are left out because they only drive highlighting. The reset of `newLaneName` after adding a lane is also left out; the input text is a parameter of `AddLane`.
- DirectEditor.Drop: requires both indices to be in range when a move happens. The handlers are bound to rendered rows, so this always holds there. JavaScript's `splice` clamping for out-of-range indices is not modelled.
- The wizard's driver (which question is shown, back navigation, storing answers in `ctx.answers`) and the handoff of the wizard's model to the editor are not modelled. `EditorOf` stands for that handoff.
- `TableInput`'s React effect timing and its dependency on `lanes.join("|")` are not modelled. `FixUp` is the effect's body, run once per lane-list change. `JSON.stringify` equality is modelled as structural equality of rows.
- Text.Trim: whitespace is a fixed set (space, tab, line feed, vertical tab, form feed, carriage return, U+00A0, U+FEFF) rather than every Unicode space separator plus the line terminators U+2028 and U+2029 that JavaScript's `trim` also strips, because that set needs a character table.
- Sanitize.Esc: `x ?? ""` is not modelled, because a string parameter cannot be null or undefined here.
- A raw answer is a string, an array of strings, an array of `{Action, Lane}` rows, or missing. Other JavaScript values (numbers, mixed arrays, `null` elements) are not modelled. An array of strings read as table rows gives blank rows, as `r?.Action` does on a string.

=== FILE: diagram.dfy ===
/** `generateDiagram`: validates the editor's data, collecting every problem,
    and on success emits the Mermaid flowchart as a list of lines (the source
    joins them with newlines). */
module Diagram {
  import opened Results
  import opened Text
  import opened Seqs
  import opened Types
  import opened Sanitize
  import opened DirectEditor

  const MsgName := "Process name is required."
  const MsgGoal := "Goal is required."
  const MsgTrigger := "Trigger is required."
  const MsgNoLanes := "Add at least one lane."
  const MsgNoSteps := "Add at least one step."
  const MsgLabels := "All steps need a non-empty label."
  const MsgLaneRefs := "Some steps reference a removed lane."

  /** The seven messages, in the order the checks run. */
  const Messages: seq<string> :=
    [MsgName, MsgGoal, MsgTrigger, MsgNoLanes, MsgNoSteps, MsgLabels, MsgLaneRefs]

  /** No message occurs twice in `msgs`. */
  predicate Distinct<T(==)>(msgs: seq<T>) {
    forall i, j :: 0 <= i < j < |msgs| ==> msgs[i] != msgs[j]
  }

  /** Which of the seven checks fail, stated directly. Name, goal and
      trigger are checked for emptiness as they are (no trimming); labels are
      checked after trimming. */
  function Failures(e: EditorState): seq<bool> {
    [ e.name == "",
      e.goal == "",
      e.trigger == "",
      |e.lanes| == 0,
      |e.steps| == 0,
      exists s :: s in e.steps && Trim(s.text) == "",
      exists s :: s in e.steps && !HasLane(e.lanes, s.laneId) ]
  }

  /** Every check passes. */
  predicate Valid(e: EditorState) {
    && e.name != "" && e.goal != "" && e.trigger != ""
    && |e.lanes| > 0 && |e.steps| > 0
    && (forall s :: s in e.steps ==> Trim(s.text) != "")
    && StepsReferToLanes(e.lanes, e.steps)
  }

  /** The messages whose check failed, in order (a sequence of
      `if (failed) errs.push(msg)`). */
  function Collect<T(==)>(failed: seq<bool>, msgs: seq<T>): (r: seq<T>)
    requires |failed| == |msgs| && Distinct(msgs)
    ensures IsSubseq(r, msgs)
    ensures forall k :: 0 <= k < |msgs| ==> (msgs[k] in r <==> failed[k])
    ensures r == [] <==> forall k :: 0 <= k < |failed| ==> !failed[k]
  {
    if |msgs| == 0 then []
    else
      var rest := Collect(failed[1..], msgs[1..]);
      assert forall k :: 1 <= k < |msgs| ==> msgs[k] == msgs[1..][k - 1];
      SubseqMembers(rest, msgs[1..]);
      assert msgs[0] !in rest;
      if failed[0] then [msgs[0]] + rest else rest
  }

  /** Selects steps whose trimmed label is empty. */
  function BlankLabel(): Step -> bool {
    (s: Step) => Trim(s.text) == ""
  }

  /** Selects steps whose lane id is not among `ids`. */
  function Dangling(ids: seq<string>): Step -> bool {
    (s: Step) => s.laneId !in ids
  }

  /** The outcome of each check, as the source computes it: the label and
      lane-reference checks count offending steps with `filter`. */
  function Checks(e: EditorState): (failed: seq<bool>)
    ensures failed == Failures(e)
  {
    var emptyLabels := Filter(e.steps, BlankLabel());
    var badLaneRefs := Filter(e.steps, Dangling(LaneIds(e.lanes)));
    BlankLabelsFound(e.steps);
    DanglingFound(e.lanes, e.steps);
    [e.name == "", e.goal == "", e.trigger == "", |e.lanes| == 0,
     |e.steps| == 0, |emptyLabels| > 0, |badLaneRefs| > 0]
  }

  /** The label check's count is positive exactly when some label is blank. */
  lemma BlankLabelsFound(steps: seq<Step>)
    ensures |Filter(steps, BlankLabel())| > 0 <==> exists s :: s in steps && Trim(s.text) == ""
  {
    var found := Filter(steps, BlankLabel());
    if |found| > 0 {
      assert found[0] in found;
    } else {
      forall s | s in steps
        ensures Trim(s.text) != ""
      {
        assert s !in found;
      }
    }
  }

  /** The lane-reference check's count is positive exactly when some step
      points at a missing lane. */
  lemma DanglingFound(lanes: seq<Lane>, steps: seq<Step>)
    ensures |Filter(steps, Dangling(LaneIds(lanes)))| > 0
        <==> exists s :: s in steps && !HasLane(lanes, s.laneId)
  {
    var found := Filter(steps, Dangling(LaneIds(lanes)));
    if |found| > 0 {
      assert found[0] in found;
    } else {
      forall s | s in steps
        ensures HasLane(lanes, s.laneId)
      {
        assert s !in found;
      }
    }
  }

  /** The seven messages are pairwise different. */
  lemma MessagesDistinct()
    ensures Distinct(Messages)
  {
  }

  /** The validation half of `generateDiagram`: all checks run, none
      short-circuits, and each failing one contributes its message once. */
  function Validate(e: EditorState): (errs: seq<string>)
    ensures IsSubseq(errs, Messages)
    ensures forall k :: 0 <= k < |Messages| ==> (Messages[k] in errs <==> Failures(e)[k])
    ensures errs == [] <==> Valid(e)
  {
    MessagesDistinct();
    var f := Failures(e);
    assert Valid(e) <==> forall k :: 0 <= k < |f| ==> !f[k] by {
      assert Valid(e) <==> !f[0] && !f[1] && !f[2] && !f[3] && !f[4] && !f[5] && !f[6];
    }
    Collect(Checks(e), Messages)
  }

  const Header := "flowchart TD"

  /** A value absent from each part is absent from their concatenation. */
  lemma NotInParts<T>(x: T, a: seq<T>, b: seq<T>, c: seq<T>, d: seq<T>, e: seq<T>, f: seq<T>)
    requires x !in a && x !in b && x !in c && x !in d && x !in e && x !in f
    ensures x !in a + b + c + d + e + f
    ensures |a| <= |a + b + c + d + e + f| && (a + b + c + d + e + f)[..|a|] == a
  {
    assert a + b + c + d + e + f == a + (b + c + d + e + f);
  }

  /** The fixed parts of the comment and subgraph lines hold no line break
      and no `]`. */
  lemma FixedPartsClean()
    ensures '\n' !in "%% " && '\n' !in " | Goal: " && '\n' !in " | Trigger: "
    ensures '\n' !in "subgraph " && ']' !in "subgraph "
    ensures '\n' !in " --> "
  {
  }

  /** The `%%` comment line carrying name, goal and trigger; whatever they
      hold, it stays a single comment line. */
  function Comment(e: EditorState): (r: string)
    ensures StartsWith(r, "%% " + Esc(e.name) + " | Goal: " + Esc(e.goal) + " | Trigger: ")
    ensures |Esc(e.trigger)| <= |r| && r[|r| - |Esc(e.trigger)|..] == Esc(e.trigger)
    ensures |r| == |"%% " + Esc(e.name) + " | Goal: " + Esc(e.goal) + " | Trigger: "| + |Esc(e.trigger)|
    ensures '\n' !in r
  {
    var name, goal, trigger := Esc(e.name), Esc(e.goal), Esc(e.trigger);
    FixedPartsClean();
    NotInParts('\n', "%% ", name, " | Goal: ", goal, " | Trigger: ", trigger);
    "%% " + name + " | Goal: " + goal + " | Trigger: " + trigger
  }

  /** `pre["text"]`: `text` sits between the two-character opening `["` and
      the closing `"]`; with no `]` in `pre` or `text`, the only `]` is the
      closing one, and with no line break in either the line has none. */
  function Bracketed(pre: string, text: string): (r: string)
    ensures StartsWith(r, pre)
    ensures |r| == |pre| + |text| + 4 && r[|pre|] == '[' && r[|pre| + 2..|r| - 2] == text
    ensures r[|pre| + 1] == '"' && r[|r| - 2] == '"'
    ensures |r| > 0 && r[|r| - 1] == ']'
    ensures ']' !in pre && ']' !in text ==> ']' !in r[..|r| - 1]
    ensures '\n' !in pre && '\n' !in text ==> '\n' !in r
  {
    var r := pre + "[\"" + text + "\"]";
    assert r[..|r| - 1] == pre + "[\"" + text + "\"";
    assert r[|pre| + 2..|r| - 2] == text;
    r
  }

  /** Opens a lane's block: the lane id names it, the escaped name labels
      it, and no lane name can close the label's bracket early or break the
      line. */
  function SubgraphLine(l: Lane): (r: string)
    ensures StartsWith(r, "subgraph " + l.id)
    ensures var pre := "subgraph " + l.id;
      |r| == |pre| + |Esc(l.name)| + 4 && r[|pre| + 2..|r| - 2] == Esc(l.name)
    ensures var pre := "subgraph " + l.id;
      r[|pre|] == '[' && r[|pre| + 1] == '"' && r[|r| - 2] == '"'
    ensures |r| > 0 && r[|r| - 1] == ']'
    ensures ']' !in l.id ==> ']' !in r[..|r| - 1]
    ensures '\n' !in l.id ==> '\n' !in r
  {
    FixedPartsClean();
    Bracketed("subgraph " + l.id, Esc(l.name))
  }

  const End := "end"

  /** A step's node: its id, with its escaped label; no label can close the
      bracket early or break the line. */
  function NodeLine(s: Step): (r: string)
    ensures StartsWith(r, s.id)
    ensures |r| == |s.id| + |Esc(s.text)| + 4 && r[|s.id| + 2..|r| - 2] == Esc(s.text)
    ensures r[|s.id|] == '[' && r[|s.id| + 1] == '"' && r[|r| - 2] == '"'
    ensures |r| > 0 && r[|r| - 1] == ']'
    ensures ']' !in s.id ==> ']' !in r[..|r| - 1]
    ensures '\n' !in s.id ==> '\n' !in r
  {
    Bracketed(s.id, Esc(s.text))
  }

  /** The flow edge from `a` to `b`: it starts at `a`'s id, ends at `b`'s,
      and stays on one line when the ids do. */
  function EdgeLine(a: Step, b: Step): (r: string)
    ensures StartsWith(r, a.id + " --> ") && |r| == |a.id| + 5 + |b.id|
    ensures |b.id| <= |r| && r[|r| - |b.id|..] == b.id
    ensures '\n' !in a.id && '\n' !in b.id ==> '\n' !in r
  {
    FixedPartsClean();
    var r := a.id + " --> " + b.id;
    assert r[..|a.id| + 5] == a.id + " --> ";
    assert r[|r| - |b.id|..] == b.id;
    r
  }

  /** Selects steps on lane `id`. */
  function OnLane(id: string): Step -> bool {
    (s: Step) => s.laneId == id
  }

  /** `stepsByLane.get(l.id)`: the steps on lane `l`, in global order. */
  function LaneSteps(steps: seq<Step>, l: Lane): (r: seq<Step>)
    ensures forall s :: s in r <==> s in steps && s.laneId == l.id
    ensures IsSubseq(r, steps)
    ensures forall s :: multiset(r)[s] == if s.laneId == l.id then multiset(steps)[s] else 0
  {
    FilterIsSubseq(steps, OnLane(l.id));
    Filter(steps, OnLane(l.id))
  }

  /** One node line per step. */
  function NodeLines(ss: seq<Step>): (r: seq<string>)
    ensures |r| == |ss|
    ensures forall k :: 0 <= k < |ss| ==> r[k] == NodeLine(ss[k])
  {
    seq(|ss|, k requires 0 <= k < |ss| => NodeLine(ss[k]))
  }

  /** A lane's `subgraph ... end` block. */
  function LaneBlock(l: Lane, steps: seq<Step>): seq<string> {
    [SubgraphLine(l)] + NodeLines(LaneSteps(steps, l)) + [End]
  }

  /** The steps in the order their nodes are emitted: lane by lane. */
  function Grouped(lanes: seq<Lane>, steps: seq<Step>): seq<Step> {
    if |lanes| == 0 then [] else LaneSteps(steps, lanes[0]) + Grouped(lanes[1..], steps)
  }

  /** Every lane's block, in lane order. */
  function Blocks(lanes: seq<Lane>, steps: seq<Step>): (r: seq<string>)
    ensures |r| == 2 * |lanes| + |Grouped(lanes, steps)|
  {
    if |lanes| == 0 then [] else LaneBlock(lanes[0], steps) + Blocks(lanes[1..], steps)
  }

  /** Grouping the lanes of `a + b` groups those of `a`, then those of `b`. */
  lemma {:induction false} GroupedAppend(a: seq<Lane>, b: seq<Lane>, steps: seq<Step>)
    ensures Grouped(a + b, steps) == Grouped(a, steps) + Grouped(b, steps)
    decreases |a|
  {
    if |a| > 0 {
      assert (a + b)[0] == a[0] && (a + b)[1..] == a[1..] + b;
      GroupedAppend(a[1..], b, steps);
      Assoc(LaneSteps(steps, a[0]), Grouped(a[1..], steps), Grouped(b, steps));
    } else {
      assert a + b == b;
    }
  }

  /** The blocks of `a + b` are those of `a`, then those of `b`. */
  lemma {:induction false} BlocksAppend(a: seq<Lane>, b: seq<Lane>, steps: seq<Step>)
    ensures Blocks(a + b, steps) == Blocks(a, steps) + Blocks(b, steps)
    decreases |a|
  {
    if |a| > 0 {
      assert (a + b)[0] == a[0] && (a + b)[1..] == a[1..] + b;
      BlocksAppend(a[1..], b, steps);
      Assoc(LaneBlock(a[0], steps), Blocks(a[1..], steps), Blocks(b, steps));
    } else {
      assert a + b == b;
    }
  }

  /** One lane's grouping and block. */
  lemma OneLane(l: Lane, steps: seq<Step>)
    ensures Grouped([l], steps) == LaneSteps(steps, l)
    ensures Blocks([l], steps) == LaneBlock(l, steps)
  {
    assert [l][1..] == [];
  }

  /** Where lane `k`'s block starts among the blocks: after the two bracket
      lines and the node lines of each lane before it. */
  function Offset(lanes: seq<Lane>, steps: seq<Step>, k: nat): nat
    requires k <= |lanes|
  {
    2 * k + |Grouped(lanes[..k], steps)|
  }

  /** Lane `k` splits the lanes into those before it, itself, and those
      after it; grouping follows that split. */
  lemma SplitGrouped(lanes: seq<Lane>, steps: seq<Step>, k: nat)
    requires k < |lanes|
    ensures Grouped(lanes, steps) ==
      Grouped(lanes[..k], steps) + LaneSteps(steps, lanes[k]) + Grouped(lanes[k + 1..], steps)
  {
    var front, l, back := lanes[..k], lanes[k], lanes[k + 1..];
    assert lanes == front + [l] + back;
    OneLane(l, steps);
    GroupedAppend(front, [l], steps);
    GroupedAppend(front + [l], back, steps);
  }

  /** Grouping one more lane appends that lane's steps. */
  lemma GroupedPrefix(lanes: seq<Lane>, steps: seq<Step>, k: nat)
    requires k < |lanes|
    ensures Grouped(lanes[..k + 1], steps) == Grouped(lanes[..k], steps) + LaneSteps(steps, lanes[k])
  {
    assert lanes[..k + 1] == lanes[..k] + [lanes[k]];
    OneLane(lanes[k], steps);
    GroupedAppend(lanes[..k], [lanes[k]], steps);
  }

  /** The blocks follow the same split. */
  lemma SplitBlocks(lanes: seq<Lane>, steps: seq<Step>, k: nat)
    requires k < |lanes|
    ensures Blocks(lanes, steps) ==
      Blocks(lanes[..k], steps) + LaneBlock(lanes[k], steps) + Blocks(lanes[k + 1..], steps)
  {
    var front, l, back := lanes[..k], lanes[k], lanes[k + 1..];
    assert lanes == front + [l] + back;
    OneLane(l, steps);
    BlocksAppend(front, [l], steps);
    BlocksAppend(front + [l], back, steps);
  }

  /** An element of the middle part of a three-part concatenation. */
  lemma At<T>(s: seq<T>, x: seq<T>, y: seq<T>, z: seq<T>, i: nat)
    requires s == x + y + z && i < |y|
    ensures |x| + i < |s| && s[|x| + i] == y[i]
  {
  }

  /** An element of the middle part of `[o] + xs + [c]`. */
  lemma Wrapped<T>(o: T, xs: seq<T>, c: T, j: nat)
    requires j < |xs|
    ensures ([o] + xs + [c])[1 + j] == xs[j]
  {
  }

  /** The `j`th node line of a lane's block. */
  lemma NodeOfBlock(l: Lane, steps: seq<Step>, j: nat)
    requires j < |LaneSteps(steps, l)|
    ensures 1 + j < |LaneBlock(l, steps)|
    ensures LaneBlock(l, steps)[1 + j] == NodeLine(LaneSteps(steps, l)[j])
  {
    var here := LaneSteps(steps, l);
    Wrapped(SubgraphLine(l), NodeLines(here), End, j);
  }

  /** The blocks before lane `k`'s take `Offset(k)` lines. */
  lemma FrontBlocks(lanes: seq<Lane>, steps: seq<Step>, k: nat)
    requires k <= |lanes|
    ensures |Blocks(lanes[..k], steps)| == Offset(lanes, steps, k)
  {
    assert |lanes[..k]| == k;
  }

  /** The blocks are laid out lane by lane: lane `k`'s block opens with its
      subgraph line at `Offset(k)`, closes with `end` just before the next
      lane's block, and holds two lines more than the lane has steps. */
  lemma BlockAt(lanes: seq<Lane>, steps: seq<Step>, k: nat)
    requires k < |lanes|
    ensures Offset(lanes, steps, k + 1) == Offset(lanes, steps, k) + |LaneSteps(steps, lanes[k])| + 2
    ensures Offset(lanes, steps, k + 1) <= |Blocks(lanes, steps)|
    ensures Blocks(lanes, steps)[Offset(lanes, steps, k)] == SubgraphLine(lanes[k])
    ensures Blocks(lanes, steps)[Offset(lanes, steps, k + 1) - 1] == End
  {
    SplitBlocks(lanes, steps, k);
    GroupedPrefix(lanes, steps, k);
    FrontBlocks(lanes, steps, k);
    FrontBlocks(lanes, steps, k + 1);
    var b0, blk, b2 := Blocks(lanes[..k], steps), LaneBlock(lanes[k], steps), Blocks(lanes[k + 1..], steps);
    At(Blocks(lanes, steps), b0, blk, b2, 0);
    At(Blocks(lanes, steps), b0, blk, b2, |blk| - 1);
    assert Offset(lanes, steps, k + 1) - 1 == |b0| + (|blk| - 1);
  }

  /** The last block closes the list. */
  lemma BlocksEnd(lanes: seq<Lane>, steps: seq<Step>)
    ensures Offset(lanes, steps, |lanes|) == |Blocks(lanes, steps)|
  {
    assert lanes[..|lanes|] == lanes;
  }

  /** `Grouped` is laid out lane by lane as well: lane `k`'s steps follow
      those of the lanes before it. */
  lemma GroupedAt(lanes: seq<Lane>, steps: seq<Step>, k: nat, j: nat)
    requires k < |lanes| && j < |LaneSteps(steps, lanes[k])|
    ensures |Grouped(lanes[..k], steps)| + j < |Grouped(lanes, steps)|
    ensures Grouped(lanes, steps)[|Grouped(lanes[..k], steps)| + j] == LaneSteps(steps, lanes[k])[j]
  {
    SplitGrouped(lanes, steps, k);
    At(Grouped(lanes, steps), Grouped(lanes[..k], steps), LaneSteps(steps, lanes[k]),
       Grouped(lanes[k + 1..], steps), j);
  }

  /** The node lines among the blocks are the node lines of `Grouped`, in
      its order: the `j`th node of lane `k`'s block renders the step at the
      matching place of `Grouped`, which is the lane's `j`th step. */
  lemma EmittedNode(lanes: seq<Lane>, steps: seq<Step>, k: nat, j: nat)
    requires k < |lanes| && j < |LaneSteps(steps, lanes[k])|
    ensures var before := |Grouped(lanes[..k], steps)|;
      && Offset(lanes, steps, k) + 1 + j < |Blocks(lanes, steps)|
      && before + j < |Grouped(lanes, steps)|
      && Blocks(lanes, steps)[Offset(lanes, steps, k) + 1 + j] ==
         NodeLine(Grouped(lanes, steps)[before + j])
  {
    var b0, blk, b2 := Blocks(lanes[..k], steps), LaneBlock(lanes[k], steps), Blocks(lanes[k + 1..], steps);
    SplitBlocks(lanes, steps, k);
    FrontBlocks(lanes, steps, k);
    NodeOfBlock(lanes[k], steps, j);
    GroupedAt(lanes, steps, k, j);
    Compose(Blocks(lanes, steps), b0, blk, b2, Offset(lanes, steps, k), 1 + j, NodeLine(LaneSteps(steps, lanes[k])[j]));
  }

  /** Element `i` of the middle part `y`, found at offset `off == |x|` plus `i`. */
  lemma Compose<T>(s: seq<T>, x: seq<T>, y: seq<T>, z: seq<T>, off: nat, i: nat, v: T)
    requires s == x + y + z && off == |x| && i < |y| && y[i] == v
    ensures off + i < |s| && s[off + i] == v
  {
  }

  /** The chain of edges in global step order. */
  function Edges(steps: seq<Step>): (r: seq<string>)
    ensures |r| == if |steps| == 0 then 0 else |steps| - 1
    ensures forall k {:trigger r[k]} :: 0 <= k < |r| ==> r[k] == EdgeLine(steps[k], steps[k + 1])
  {
    if |steps| < 2 then []
    else [EdgeLine(steps[0], steps[1])] + Edges(steps[1..])
  }

  /** The emitted lines: header, comment, lane blocks, edges. */
  function Lines(e: EditorState): seq<string> {
    [Header, Comment(e)] + Blocks(e.lanes, e.steps) + Edges(e.steps)
  }

  /** Where the parts of `[h, c] + b + ed` sit. */
  lemma Layout<T>(h: T, c: T, b: seq<T>, ed: seq<T>)
    ensures var l := [h, c] + b + ed;
      && |l| == 2 + |b| + |ed|
      && l[0] == h && l[1] == c
      && l[2..2 + |b|] == b
      && l[|l| - |ed|..] == ed
  {
    var l := [h, c] + b + ed;
    assert l[2..2 + |b|] == b;
    assert l[|l| - |ed|..] == ed;
  }

  /** The header, the comment and the lane blocks come first, in that order. */
  lemma LinesFront(e: EditorState)
    ensures var lines, b := Lines(e), Blocks(e.lanes, e.steps);
      && |lines| == 2 + |b| + |Edges(e.steps)|
      && lines[0] == Header
      && lines[1] == Comment(e)
      && lines[2..2 + |b|] == b
  {
    Layout(Header, Comment(e), Blocks(e.lanes, e.steps), Edges(e.steps));
  }

  /** The edge chain closes the output. */
  lemma LinesEdges(e: EditorState)
    requires |e.steps| > 0
    ensures var lines, n := Lines(e), |e.steps|;
      lines[|lines| - (n - 1)..] == Edges(e.steps)
  {
    Layout(Header, Comment(e), Blocks(e.lanes, e.steps), Edges(e.steps));
  }

  /** With distinct lane ids and valid references there are two lines per
      lane, two per step (node and edge) and one more (header and comment,
      less the missing edge before the first step). */
  lemma LinesCount(e: EditorState)
    requires |e.steps| > 0 && StepsReferToLanes(e.lanes, e.steps)
    ensures DistinctLaneIds(e.lanes) ==> |Lines(e)| == 2 * |e.lanes| + 2 * |e.steps| + 1
  {
    LinesFront(e);
    if DistinctLaneIds(e.lanes) {
      GroupedIsPermutation(e.lanes, e.steps);
    }
  }

  /** `generateDiagram`: the error list when any check fails (and no
      diagram), otherwise the header, the comment, one block per lane and the
      edge chain. */
  function Generate(e: EditorState): (r: Result<seq<string>, seq<string>>)
    ensures r.Failure? <==> !Valid(e)
    ensures r.Failure? ==> r.error == Validate(e) && |r.error| > 0
    ensures r.Success? ==>
      var lines, n, b := r.value, |e.steps|, Blocks(e.lanes, e.steps);
      && n > 0 && |e.lanes| > 0
      && |lines| == 2 + |b| + (n - 1)
      && lines[0] == Header
      && lines[1] == Comment(e)
      && lines[2..2 + |b|] == b
      && var edges := lines[|lines| - (n - 1)..];
      && (forall k {:trigger edges[k]} :: 0 <= k < n - 1 ==> edges[k] == EdgeLine(e.steps[k], e.steps[k + 1]))
      && (DistinctLaneIds(e.lanes) ==> |lines| == 2 * |e.lanes| + 2 * n + 1)
  {
    var errs := Validate(e);
    if errs != [] then Failure(errs)
    else
      LinesFront(e);
      LinesEdges(e);
      LinesCount(e);
      Success(Lines(e))
  }

  /** How many lanes have the id `id`. */
  function LanesWithId(lanes: seq<Lane>, id: string): nat {
    if |lanes| == 0 then 0
    else (if lanes[0].id == id then 1 else 0) + LanesWithId(lanes[1..], id)
  }

  /** A step is emitted once for every lane carrying its lane id. */
  lemma {:induction false} GroupedCount(lanes: seq<Lane>, steps: seq<Step>, x: Step)
    ensures multiset(Grouped(lanes, steps))[x] == LanesWithId(lanes, x.laneId) * multiset(steps)[x]
  {
    if |lanes| > 0 {
      var here, rest := LaneSteps(steps, lanes[0]), Grouped(lanes[1..], steps);
      var c, m := LanesWithId(lanes[1..], x.laneId), multiset(steps)[x];
      var same := x.laneId == lanes[0].id;
      GroupedCount(lanes[1..], steps, x);
      assert Grouped(lanes, steps) == here + rest;
      CountAppend(here, rest, x);
      Tally(multiset(here)[x], multiset(rest)[x], LanesWithId(lanes, x.laneId), c, m, same);
    }
  }

  /** The arithmetic of one step of `GroupedCount`. */
  lemma Tally(h: nat, r: nat, n: nat, c: nat, m: nat, same: bool)
    requires r == c * m
    requires h == if same then m else 0
    requires n == if same then c + 1 else c
    ensures h + r == n * m
  {
    if same {
      OneMore(c, m);
    }
  }

  /** `(c + 1) * m == c * m + m`. */
  lemma OneMore(c: nat, m: nat)
    ensures (c + 1) * m == c * m + m
  {
  }

  /** With distinct ids, an existing lane id is carried by exactly one lane. */
  lemma {:induction false} OneLanePerId(lanes: seq<Lane>, id: string)
    requires DistinctLaneIds(lanes) && HasLane(lanes, id)
    ensures LanesWithId(lanes, id) == 1
  {
    var rest := lanes[1..];
    assert DistinctLaneIds(rest) by {
      forall i, j | 0 <= i < j < |rest|
        ensures rest[i].id != rest[j].id
      {
        assert rest[i] == lanes[i + 1] && rest[j] == lanes[j + 1];
      }
    }
    if lanes[0].id == id {
      NoLaneWithId(rest, id, lanes[0]);
    } else {
      var l :| l in lanes && l.id == id;
      assert l in rest;
      OneLanePerId(rest, id);
    }
  }

  /** No lane of `lanes` shares an id with `first`, which came before them. */
  lemma {:induction false} NoLaneWithId(lanes: seq<Lane>, id: string, first: Lane)
    requires first.id == id
    requires forall k :: 0 <= k < |lanes| ==> lanes[k].id != first.id
    ensures LanesWithId(lanes, id) == 0
  {
    if |lanes| > 0 {
      NoLaneWithId(lanes[1..], id, first);
    }
  }

  /** With distinct lane ids and no dangling reference, the emitted nodes are
      a permutation of the steps: every step gets exactly one node line. */
  lemma GroupedIsPermutation(lanes: seq<Lane>, steps: seq<Step>)
    requires DistinctLaneIds(lanes) && StepsReferToLanes(lanes, steps)
    ensures multiset(Grouped(lanes, steps)) == multiset(steps)
    ensures |Grouped(lanes, steps)| == |steps|
  {
    forall x
      ensures multiset(Grouped(lanes, steps))[x] == multiset(steps)[x]
    {
      GroupedCount(lanes, steps, x);
      if x in steps {
        OneLanePerId(lanes, x.laneId);
      }
    }
    assert multiset(Grouped(lanes, steps)) == multiset(steps);
    assert |multiset(Grouped(lanes, steps))| == |multiset(steps)|;
  }
}

=== FILE: editor.dfy ===
/** The direct editor's state and its handlers: adding and removing lanes,
    adding, patching and removing steps, and drag-to-reorder. Each handler is
    a pure function from the old state to the new one; fresh ids are
    supplied by the caller. */
module DirectEditor {
  import opened Results
  import opened Text
  import opened Seqs
  import opened Types

  /** Meta fields, lanes, steps, and the index of the step being dragged. */
  datatype EditorState = EditorState(
    name: string,
    goal: string,
    trigger: string,
    lanes: seq<Lane>,
    steps: seq<Step>,
    dragIndex: Option<int>)

  /** The editor as it starts: everything empty, nothing dragged. */
  const Initial := EditorState("", "", "", [], [], None)

  /** `addLane`: a lane named by the trimmed input box, if that is not blank. */
  function AddLane(e: EditorState, input: string, freshId: string): (r: EditorState)
    ensures Trim(input) != "" ==>
      && |r.lanes| == |e.lanes| + 1
      && r.lanes[..|e.lanes|] == e.lanes
      && r.lanes[|e.lanes|] == Lane(freshId, Trim(input))
    ensures Trim(input) == "" ==> r == e
    ensures r.(lanes := e.lanes) == e
  {
    var n := Trim(input);
    if n != "" then e.(lanes := e.lanes + [Lane(freshId, n)]) else e
  }

  /** Keeps lanes whose id is not `id`. */
  function OtherLane(id: string): Lane -> bool {
    (l: Lane) => l.id != id
  }

  /** Keeps steps that are not on lane `id`. */
  function OffLane(id: string): Step -> bool {
    (s: Step) => s.laneId != id
  }

  /** The lanes other than lane `id`, each as often as before, in order. */
  function OtherLanes(lanes: seq<Lane>, id: string): (r: seq<Lane>)
    ensures forall l :: l in r <==> l in lanes && l.id != id
    ensures forall l :: multiset(r)[l] == if l.id != id then multiset(lanes)[l] else 0
    ensures IsSubseq(r, lanes)
  {
    FilterIsSubseq(lanes, OtherLane(id));
    Filter(lanes, OtherLane(id))
  }

  /** The steps not on lane `id`, each as often as before, in order. */
  function StepsOffLane(steps: seq<Step>, id: string): (r: seq<Step>)
    ensures forall s :: s in r <==> s in steps && s.laneId != id
    ensures forall s :: multiset(r)[s] == if s.laneId != id then multiset(steps)[s] else 0
    ensures IsSubseq(r, steps)
    ensures (forall k :: 0 <= k < |steps| ==> steps[k].laneId != id) ==> r == steps
  {
    FilterIsSubseq(steps, OffLane(id));
    Filter(steps, OffLane(id))
  }

  /** `removeLane`: the lane goes, and so does every step on it. */
  function RemoveLane(e: EditorState, id: string): (r: EditorState)
    ensures forall l :: l in r.lanes <==> l in e.lanes && l.id != id
    ensures forall s :: s in r.steps <==> s in e.steps && s.laneId != id
    ensures IsSubseq(r.lanes, e.lanes) && IsSubseq(r.steps, e.steps)
    ensures forall l :: multiset(r.lanes)[l] == if l.id != id then multiset(e.lanes)[l] else 0
    ensures forall s :: multiset(r.steps)[s] == if s.laneId != id then multiset(e.steps)[s] else 0
    ensures (forall k :: 0 <= k < |e.steps| ==> e.steps[k].laneId != id) ==> r.steps == e.steps
    ensures r.(lanes := e.lanes, steps := e.steps) == e
  {
    e.(lanes := OtherLanes(e.lanes, id), steps := StepsOffLane(e.steps, id))
  }

  /** Removing a lane cascades, so no step is left pointing at a lane that
      is gone. */
  lemma RemoveLaneKeepsReferences(e: EditorState, id: string)
    requires StepsReferToLanes(e.lanes, e.steps)
    ensures StepsReferToLanes(RemoveLane(e, id).lanes, RemoveLane(e, id).steps)
  {
    var r := RemoveLane(e, id);
    forall s | s in r.steps
      ensures HasLane(r.lanes, s.laneId)
    {
      var l :| l in e.lanes && l.id == s.laneId;
      assert l in r.lanes;
    }
  }

  /** Removing the lane that was just added, before any step uses it, undoes
      the addition. */
  lemma RemoveLaneUndoesAddLane(e: EditorState, input: string, freshId: string)
    requires !HasLane(e.lanes, freshId)
    requires forall s :: s in e.steps ==> s.laneId != freshId
    ensures RemoveLane(AddLane(e, input, freshId), freshId) == e
  {
    var a := AddLane(e, input, freshId);
    FilterKeepsAll(e.lanes, OtherLane(freshId));
    if Trim(input) != "" {
      FilterDropsLast(e.lanes, Lane(freshId, Trim(input)), OtherLane(freshId));
    }
  }

  /** Adding a lane keeps lane ids distinct when the new id is fresh, and
      keeps every step's lane reference valid. */
  lemma AddLaneKeepsInvariants(e: EditorState, input: string, freshId: string)
    requires DistinctLaneIds(e.lanes) && !HasLane(e.lanes, freshId)
    requires StepsReferToLanes(e.lanes, e.steps)
    ensures DistinctLaneIds(AddLane(e, input, freshId).lanes)
    ensures StepsReferToLanes(AddLane(e, input, freshId).lanes, AddLane(e, input, freshId).steps)
  {
    var r := AddLane(e, input, freshId);
    forall s | s in r.steps
      ensures HasLane(r.lanes, s.laneId)
    {
      var l :| l in e.lanes && l.id == s.laneId;
      assert l in r.lanes;
    }
    if Trim(input) != "" {
      forall i, j | 0 <= i < j < |r.lanes|
        ensures r.lanes[i].id != r.lanes[j].id
      {
        if j == |e.lanes| {
          assert r.lanes[i] in e.lanes;
        }
      }
    }
  }

  /** `addStep`: with at least one lane, a step with an empty label on the
      first lane is appended; with no lanes nothing happens. */
  function AddStep(e: EditorState, freshId: string): (r: EditorState)
    ensures |e.lanes| == 0 ==> r == e
    ensures |e.lanes| > 0 ==>
      && |r.steps| == |e.steps| + 1
      && r.steps[..|e.steps|] == e.steps
      && r.steps[|e.steps|] == Step(freshId, "", e.lanes[0].id)
    ensures r.(steps := e.steps) == e
  {
    if |e.lanes| > 0 then e.(steps := e.steps + [Step(freshId, "", e.lanes[0].id)]) else e
  }

  /** A new step always refers to an existing lane. */
  lemma AddStepKeepsReferences(e: EditorState, freshId: string)
    requires StepsReferToLanes(e.lanes, e.steps)
    ensures StepsReferToLanes(AddStep(e, freshId).lanes, AddStep(e, freshId).steps)
  {
    if |e.lanes| > 0 {
      assert e.lanes[0] in e.lanes;
    }
  }

  /** Keeps steps whose id is not `id`. */
  function OtherStep(id: string): Step -> bool {
    (s: Step) => s.id != id
  }

  /** The step list's remove button: drops the step with id `id`. */
  function RemoveStep(e: EditorState, id: string): (r: EditorState)
    ensures forall s :: s in r.steps <==> s in e.steps && s.id != id
    ensures IsSubseq(r.steps, e.steps)
    ensures forall s :: multiset(r.steps)[s] == if s.id != id then multiset(e.steps)[s] else 0
    ensures r.(steps := e.steps) == e
  {
    FilterIsSubseq(e.steps, OtherStep(id));
    e.(steps := Filter(e.steps, OtherStep(id)))
  }

  /** Removing a freshly added step undoes the addition. */
  lemma RemoveStepUndoesAddStep(e: EditorState, freshId: string)
    requires forall s :: s in e.steps ==> s.id != freshId
    ensures RemoveStep(AddStep(e, freshId), freshId) == e
  {
    FilterKeepsAll(e.steps, OtherStep(freshId));
    if |e.lanes| > 0 {
      FilterDropsLast(e.steps, Step(freshId, "", e.lanes[0].id), OtherStep(freshId));
    }
  }

  /** A `Partial<Step>`: the fields a patch overwrites. */
  datatype Patch = Patch(id: Option<string>, text: Option<string>, laneId: Option<string>)

  /** `{ ...s, ...patch }`: a field the patch carries wins, every other
      field keeps the step's value. */
  function Merge(s: Step, p: Patch): (r: Step)
    ensures p.id.Some? ==> r.id == p.id.value
    ensures p.text.Some? ==> r.text == p.text.value
    ensures p.laneId.Some? ==> r.laneId == p.laneId.value
    ensures p.id.None? ==> r.id == s.id
    ensures p.text.None? ==> r.text == s.text
    ensures p.laneId.None? ==> r.laneId == s.laneId
  {
    Step(p.id.GetOr(s.id), p.text.GetOr(s.text), p.laneId.GetOr(s.laneId))
  }

  /** Applying the same patch twice is applying it once, and an empty patch
      changes nothing. */
  lemma MergeIdempotent(s: Step, p: Patch)
    ensures Merge(Merge(s, p), p) == Merge(s, p)
    ensures Merge(s, Patch(None, None, None)) == s
  {
  }

  /** `updateStep`: step `i` is patched, every other step is untouched; an
      index outside the list changes nothing. */
  function UpdateStep(e: EditorState, i: int, p: Patch): (r: EditorState)
    ensures |r.steps| == |e.steps|
    ensures forall k :: 0 <= k < |e.steps| && k != i ==> r.steps[k] == e.steps[k]
    ensures 0 <= i < |e.steps| ==> r.steps[i] == Merge(e.steps[i], p)
    ensures !(0 <= i < |e.steps|) ==> r == e
    ensures r.(steps := e.steps) == e
  {
    var steps := seq(|e.steps|, k requires 0 <= k < |e.steps| =>
      if k == i then Merge(e.steps[k], p) else e.steps[k]);
    assert !(0 <= i < |e.steps|) ==> steps == e.steps;
    e.(steps := steps)
  }

  /** Patching a label and then patching the old label back restores the
      state. */
  lemma UpdateStepLabelUndo(e: EditorState, i: int, text: string)
    requires 0 <= i < |e.steps|
    ensures UpdateStep(UpdateStep(e, i, Patch(None, Some(text), None)), i,
                       Patch(None, Some(e.steps[i].text), None)) == e
  {
    var r := UpdateStep(UpdateStep(e, i, Patch(None, Some(text), None)), i,
                        Patch(None, Some(e.steps[i].text), None));
    assert r.steps == e.steps;
  }

  /** A patch that leaves `laneId` alone or points it at an existing lane
      keeps every reference valid. */
  lemma UpdateStepKeepsReferences(e: EditorState, i: int, p: Patch)
    requires StepsReferToLanes(e.lanes, e.steps)
    requires p.laneId.Some? ==> HasLane(e.lanes, p.laneId.value)
    ensures StepsReferToLanes(UpdateStep(e, i, p).lanes, UpdateStep(e, i, p).steps)
  {
    var r := UpdateStep(e, i, p);
    forall s | s in r.steps
      ensures HasLane(r.lanes, s.laneId)
    {
      var k :| 0 <= k < |r.steps| && r.steps[k] == s;
      assert e.steps[k] in e.steps;
    }
  }

  /** `handleDragStart`: remembers which step is being dragged. */
  function DragStart(e: EditorState, i: int): (r: EditorState)
    ensures r.dragIndex == Some(i)
    ensures r.(dragIndex := e.dragIndex) == e
  {
    e.(dragIndex := Some(i))
  }

  /** `handleDrop(i)`: the dragged step is taken out and reinserted so that it
      sits at index `i`; with nothing dragged, or a drop onto itself, the
      steps stay as they are. The drag is over either way. The two indices
      are those of rendered rows, hence in range when a move happens. */
  function Drop(e: EditorState, i: int): (r: EditorState)
    requires e.dragIndex.Some? && e.dragIndex.value != i ==>
      0 <= e.dragIndex.value < |e.steps| && 0 <= i < |e.steps|
    ensures r.dragIndex.None?
    ensures e.dragIndex.None? || e.dragIndex.value == i ==> r.steps == e.steps
    ensures e.dragIndex.Some? && e.dragIndex.value != i ==>
      && |r.steps| == |e.steps|
      && r.steps[i] == e.steps[e.dragIndex.value]
      && RemoveAt(r.steps, i) == RemoveAt(e.steps, e.dragIndex.value)
      && multiset(r.steps) == multiset(e.steps)
    ensures r.(steps := e.steps, dragIndex := e.dragIndex) == e
  {
    match e.dragIndex
    case Some(from) =>
      if from != i then e.(steps := Move(e.steps, from, i), dragIndex := None)
      else e.(dragIndex := None)
    case None => e.(dragIndex := None)
  }

  /** Reordering never breaks a lane reference: the steps are a permutation
      of the old ones. */
  lemma DropKeepsReferences(e: EditorState, i: int)
    requires e.dragIndex.Some? && e.dragIndex.value != i ==>
      0 <= e.dragIndex.value < |e.steps| && 0 <= i < |e.steps|
    requires StepsReferToLanes(e.lanes, e.steps)
    ensures StepsReferToLanes(Drop(e, i).lanes, Drop(e, i).steps)
  {
    var r := Drop(e, i);
    forall s | s in r.steps
      ensures HasLane(r.lanes, s.laneId)
    {
      assert s in multiset(r.steps);
    }
  }

  /** `handleDragEnd`: the drag is abandoned, nothing moves. */
  function DragEnd(e: EditorState): (r: EditorState)
    ensures r.dragIndex.None?
    ensures r.(dragIndex := e.dragIndex) == e
  {
    e.(dragIndex := None)
  }
}

=== FILE: end_to_end.dfy ===
/** How the two entry paths meet: a model the wizard builds from accepted
    answers passes every check of the generator, and a worked example of
    what the generator emits. */
module EndToEnd {
  import opened Results
  import opened Text
  import opened Seqs
  import opened Types
  import opened Sanitize
  import opened DirectEditor
  import opened Diagram
  import opened Questions

  /** The editor state holding a model's meta fields, lanes and steps. */
  function EditorOf(m: ProcessModel): (e: EditorState)
    ensures e.name == m.name && e.goal == m.goal && e.trigger == m.trigger
    ensures e.lanes == m.lanes && e.steps == m.steps && e.dragIndex.None?
  {
    EditorState(m.name, m.goal, m.trigger, m.lanes, m.steps, None)
  }

  /** Question `q` accepted answer `v` in context `ctx` and led to `next`. */
  predicate Advances(q: Question, v: Raw, ctx: Ctx, next: Ctx, ids: Ids) {
    Submit(q, v, ctx, ids).Advanced? && Submit(q, v, ctx, ids).ctx == next
  }

  /** A run in which the questions that shape the model (name, goal,
      trigger, lanes, happy path) accepted `answers` in that order, taking
      the context from `ctxs[0]` through to `ctxs[5]`. */
  predicate AcceptedRun(answers: seq<Raw>, ctxs: seq<Ctx>, ids: Ids) {
    && |answers| == 5 && |ctxs| == 6
    && Advances(AskName, answers[0], ctxs[0], ctxs[1], ids)
    && Advances(AskGoal, answers[1], ctxs[1], ctxs[2], ids)
    && Advances(AskTrigger, answers[2], ctxs[2], ctxs[3], ids)
    && Advances(AskLanes, answers[3], ctxs[3], ctxs[4], ids)
    && Advances(AskHappy, answers[4], ctxs[4], ctxs[5], ids)
  }

  /** Answers accepted for name, goal, trigger, lanes and happy path, in
      that order, give a model the generator accepts: whatever the starting
      context, the validators leave none of the generator's seven checks to
      fail. */
  lemma WizardModelPassesChecks(answers: seq<Raw>, ctxs: seq<Ctx>, ids: Ids)
    requires AcceptedRun(answers, ctxs, ids)
    ensures Valid(EditorOf(ctxs[5].m))
    ensures Generate(EditorOf(ctxs[5].m)).Success?
  {
    MetaAnswered(answers[..3], ctxs[..4], ids);
    MetaKept(answers[3], answers[4], ctxs[3], ctxs[4], ctxs[5], ids);
    HappyAcceptedPassesChecks(answers[4], ctxs[4], ids);
  }

  /** After the first three questions, name, goal and trigger are set. */
  lemma MetaAnswered(answers: seq<Raw>, ctxs: seq<Ctx>, ids: Ids)
    requires |answers| == 3 && |ctxs| == 4
    requires Advances(AskName, answers[0], ctxs[0], ctxs[1], ids)
    requires Advances(AskGoal, answers[1], ctxs[1], ctxs[2], ids)
    requires Advances(AskTrigger, answers[2], ctxs[2], ctxs[3], ids)
    ensures ctxs[3].m.name != "" && ctxs[3].m.goal != "" && ctxs[3].m.trigger != ""
  {
    NameAccepted(answers[0], ctxs[0], ctxs[1], ids);
    GoalAccepted(answers[1], ctxs[1], ctxs[2], ids);
    TriggerAccepted(answers[2], ctxs[2], ctxs[3], ids);
  }

  /** The lanes and happy-path questions leave name, goal and trigger alone,
      and the last one builds the steps from an answer its validator passed. */
  lemma MetaKept(lanes: Raw, happy: Raw, c3: Ctx, c4: Ctx, c5: Ctx, ids: Ids)
    requires Advances(AskLanes, lanes, c3, c4, ids)
    requires Advances(AskHappy, happy, c4, c5, ids)
    ensures c5.m.name == c3.m.name && c5.m.goal == c3.m.goal && c5.m.trigger == c3.m.trigger
    ensures c5 == ApplyHappy(happy, c4, ids) && ValidateHappy(happy, c4).None?
  {
    LanesQuestion(lanes, c3, ids);
    ApplyLanesSpec(lanes, c3, ids);
    HappyQuestion(happy, c4, ids);
  }

  // What each accepted answer did.

  lemma NameAccepted(v: Raw, ctx: Ctx, next: Ctx, ids: Ids)
    requires Advances(AskName, v, ctx, next, ids)
    ensures next == ApplyName(v, ctx) && next.m.name != ""
  {
    NameQuestion(v, ctx, ids);
  }

  lemma GoalAccepted(v: Raw, ctx: Ctx, next: Ctx, ids: Ids)
    requires Advances(AskGoal, v, ctx, next, ids)
    ensures next == ApplyGoal(v, ctx) && next.m.goal != ""
  {
    GoalQuestion(v, ctx, ids);
  }

  lemma TriggerAccepted(v: Raw, ctx: Ctx, next: Ctx, ids: Ids)
    requires Advances(AskTrigger, v, ctx, next, ids)
    ensures next == ApplyTrigger(v, ctx) && next.m.trigger != ""
  {
    TriggerQuestion(v, ctx, ids);
  }

  /** The model after an accepted happy-path answer has steps, lanes,
      non-blank labels and valid lane references. */
  lemma HappyAcceptedPassesChecks(v: Raw, ctx: Ctx, ids: Ids)
    requires ValidateHappy(v, ctx).None?
    ensures var m := ApplyHappy(v, ctx, ids).m;
      && |m.lanes| > 0 && |m.steps| > 0
      && (forall s :: s in m.steps ==> Trim(s.text) != "")
      && StepsReferToLanes(m.lanes, m.steps)
  {
    HappyAcceptedNeedsLanes(v, ctx);
    var steps := ApplyHappy(v, ctx, ids).m.steps;
    forall k | 0 <= k < |steps|
      ensures Trim(steps[k].text) != ""
    {
      LabelNotBlank(v, ctx, ids, k);
    }
    EveryMember(steps, Labelled);
  }

  /** A step with a non-blank label. */
  function Labelled(s: Step): bool {
    Trim(s.text) != ""
  }

  /** What holds at every index holds for every member. */
  lemma EveryMember<T>(s: seq<T>, p: T -> bool)
    requires forall k :: 0 <= k < |s| ==> p(s[k])
    ensures forall x :: x in s ==> p(x)
  {
  }

  /** Step `k` of an accepted happy-path answer has a non-blank label. */
  lemma LabelNotBlank(v: Raw, ctx: Ctx, ids: Ids, k: nat)
    requires ValidateHappy(v, ctx).None?
    requires k < |TableRows(v)|
    ensures k < |ApplyHappy(v, ctx, ids).m.steps|
    ensures Trim(ApplyHappy(v, ctx, ids).m.steps[k].text) != ""
  {
    var row := TableRows(v)[k];
    assert Trim(row.action) != "" by {
      assert RowOk(row, LaneNames(ctx.m.lanes));
    }
    assert ApplyHappy(v, ctx, ids).m.steps[k].text == Trim(row.action);
    TrimIdempotent(row.action);
  }

  /** Two lanes and three steps, the first and third on the first lane and
      the second on the other: the nodes are grouped lane by lane (first,
      third, then second) while the edges follow the global step order,
      crossing between the lanes. */
  lemma GroupingExample(e: EditorState, l1: Lane, l2: Lane, s1: Step, s2: Step, s3: Step)
    requires e.lanes == [l1, l2] && l1.id != l2.id
    requires e.steps == [s1, s2, s3]
    requires s1.laneId == l1.id && s2.laneId == l2.id && s3.laneId == l1.id
    requires Valid(e)
    ensures Generate(e) == Success([
      Header, Comment(e),
      SubgraphLine(l1), NodeLine(s1), NodeLine(s3), End,
      SubgraphLine(l2), NodeLine(s2), End,
      EdgeLine(s1, s2), EdgeLine(s2, s3)])
  {
    GroupingLines(e, l1, l2, s1, s2, s3);
  }

  /** The emitted lines of the grouping example. */
  lemma GroupingLines(e: EditorState, l1: Lane, l2: Lane, s1: Step, s2: Step, s3: Step)
    requires e.lanes == [l1, l2] && l1.id != l2.id
    requires e.steps == [s1, s2, s3]
    requires s1.laneId == l1.id && s2.laneId == l2.id && s3.laneId == l1.id
    ensures Lines(e) == [
      Header, Comment(e),
      SubgraphLine(l1), NodeLine(s1), NodeLine(s3), End,
      SubgraphLine(l2), NodeLine(s2), End,
      EdgeLine(s1, s2), EdgeLine(s2, s3)]
  {
    GroupingBlocks(l1, l2, s1, s2, s3);
    EdgesThree(s1, s2, s3);
    Frame(Header, Comment(e), Blocks(e.lanes, e.steps), Edges(e.steps),
          SubgraphLine(l1), NodeLine(s1), NodeLine(s3), End, SubgraphLine(l2), NodeLine(s2),
          EdgeLine(s1, s2), EdgeLine(s2, s3));
  }

  /** Three steps in a row give two edges. */
  lemma EdgesThree(s1: Step, s2: Step, s3: Step)
    ensures Edges([s1, s2, s3]) == [EdgeLine(s1, s2), EdgeLine(s2, s3)]
  {
    var r := Edges([s1, s2, s3]);
    Pair(r, EdgeLine(s1, s2), EdgeLine(s2, s3));
  }

  /** Header, comment, two blocks and a two-edge chain, spelled out. */
  lemma Frame<T>(h: T, c: T, blocks: seq<T>, edges: seq<T>,
                 a1: T, p: T, q: T, b: T, a2: T, r: T, e1: T, e2: T)
    requires blocks == [a1, p, q, b, a2, r, b] && edges == [e1, e2]
    ensures [h, c] + blocks + edges == [h, c, a1, p, q, b, a2, r, b, e1, e2]
  {
  }

  /** The steps on each lane of the grouping example, in order. */
  lemma GroupingLaneSteps(l1: Lane, l2: Lane, s1: Step, s2: Step, s3: Step)
    requires l1.id != l2.id
    requires s1.laneId == l1.id && s2.laneId == l2.id && s3.laneId == l1.id
    ensures LaneSteps([s1, s2, s3], l1) == [s1, s3]
    ensures LaneSteps([s1, s2, s3], l2) == [s2]
  {
    FirstLaneSteps(l1, s1, s2, s3);
    SecondLaneSteps(l2, s1, s2, s3);
  }

  /** The first and third steps are on `l`, the second is not. */
  lemma FirstLaneSteps(l: Lane, s1: Step, s2: Step, s3: Step)
    requires s1.laneId == l.id && s2.laneId != l.id && s3.laneId == l.id
    ensures LaneSteps([s1, s2, s3], l) == [s1, s3]
  {
    FilterThree(s1, s2, s3, OnLane(l.id));
    assert [s1] + ([] + [s3]) == [s1, s3];
  }

  /** Only the second step is on `l`. */
  lemma SecondLaneSteps(l: Lane, s1: Step, s2: Step, s3: Step)
    requires s1.laneId != l.id && s2.laneId == l.id && s3.laneId != l.id
    ensures LaneSteps([s1, s2, s3], l) == [s2]
  {
    FilterThree(s1, s2, s3, OnLane(l.id));
    assert [] + ([s2] + []) == [s2];
  }

  /** Two lanes give their two blocks, one after the other. */
  lemma BlocksTwo(l1: Lane, l2: Lane, steps: seq<Step>)
    ensures Blocks([l1, l2], steps) == LaneBlock(l1, steps) + LaneBlock(l2, steps)
  {
    assert [l1, l2] == [l1] + [l2];
    BlocksAppend([l1], [l2], steps);
    OneLane(l1, steps);
    OneLane(l2, steps);
  }

  /** A block whose lane holds two steps. */
  lemma BlockOfTwo(l: Lane, steps: seq<Step>, p: Step, q: Step)
    requires LaneSteps(steps, l) == [p, q]
    ensures LaneBlock(l, steps) == [SubgraphLine(l), NodeLine(p), NodeLine(q), End]
  {
    Pair(NodeLines([p, q]), NodeLine(p), NodeLine(q));
    WrapTwo(SubgraphLine(l), NodeLines([p, q]), End, NodeLine(p), NodeLine(q));
  }

  /** A block whose lane holds one step. */
  lemma BlockOfOne(l: Lane, steps: seq<Step>, p: Step)
    requires LaneSteps(steps, l) == [p]
    ensures LaneBlock(l, steps) == [SubgraphLine(l), NodeLine(p), End]
  {
    Single(NodeLines([p]), NodeLine(p));
    WrapOne(SubgraphLine(l), NodeLines([p]), End, NodeLine(p));
  }

  /** A two-element sequence, spelled out. */
  lemma Pair<T>(x: seq<T>, a: T, b: T)
    requires |x| == 2 && x[0] == a && x[1] == b
    ensures x == [a, b]
  {
  }

  /** A one-element sequence, spelled out. */
  lemma Single<T>(x: seq<T>, a: T)
    requires |x| == 1 && x[0] == a
    ensures x == [a]
  {
  }

  /** `[open] + [a, b] + [close]`, spelled out. */
  lemma WrapTwo<T>(o: T, x: seq<T>, c: T, a: T, b: T)
    requires x == [a, b]
    ensures [o] + x + [c] == [o, a, b, c]
  {
  }

  /** `[open] + [a] + [close]`, spelled out. */
  lemma WrapOne<T>(o: T, x: seq<T>, c: T, a: T)
    requires x == [a]
    ensures [o] + x + [c] == [o, a, c]
  {
  }

  /** The lane blocks of the grouping example. */
  lemma GroupingBlocks(l1: Lane, l2: Lane, s1: Step, s2: Step, s3: Step)
    requires l1.id != l2.id
    requires s1.laneId == l1.id && s2.laneId == l2.id && s3.laneId == l1.id
    ensures Blocks([l1, l2], [s1, s2, s3]) ==
      [SubgraphLine(l1), NodeLine(s1), NodeLine(s3), End, SubgraphLine(l2), NodeLine(s2), End]
  {
    var steps := [s1, s2, s3];
    GroupingLaneSteps(l1, l2, s1, s2, s3);
    BlocksTwo(l1, l2, steps);
    BlockOfTwo(l1, steps, s1, s3);
    BlockOfOne(l2, steps, s2);
    Join2(LaneBlock(l1, steps), LaneBlock(l2, steps),
          SubgraphLine(l1), NodeLine(s1), NodeLine(s3), End, SubgraphLine(l2), NodeLine(s2));
  }

  /** A four-line block followed by a three-line one, spelled out. */
  lemma Join2<T>(x: seq<T>, y: seq<T>, a1: T, p: T, q: T, b: T, a2: T, r: T)
    requires x == [a1, p, q, b] && y == [a2, r, b]
    ensures x + y == [a1, p, q, b, a2, r, b]
  {
  }

  /** A state missing its trigger and holding a single step with a blank
      label gets exactly those two messages, in check order, and no
      diagram. */
  lemma ErrorExample(e: EditorState, l: Lane, s: Step)
    requires e.name != "" && e.goal != "" && e.trigger == ""
    requires e.lanes == [l] && e.steps == [s] && s.laneId == l.id
    requires Trim(s.text) == ""
    ensures Generate(e) == Failure([MsgTrigger, MsgLabels])
  {
    assert s in e.steps && l in e.lanes;
    assert Failures(e) == [false, false, true, false, false, true, false];
    MessagesDistinct();
    CollectThirdAndSixth(Failures(e), Messages);
  }

  /** Of seven checks, only the third and sixth fail. */
  lemma CollectThirdAndSixth<T>(f: seq<bool>, m: seq<T>)
    requires f == [false, false, true, false, false, true, false]
    requires |m| == 7 && Distinct(m)
    ensures Collect(f, m) == [m[2], m[5]]
  {
    assert Collect(f[6..], m[6..]) == [];
    assert Collect(f[5..], m[5..]) == [m[5]];
    assert Collect(f[3..], m[3..]) == [m[5]];
    assert Collect(f[2..], m[2..]) == [m[2], m[5]];
  }
}

=== FILE: questions.dfy ===
/** The wizard's question table: per question a validator, an answer
    applier that updates the context, and a next-question rule. Appliers
    return a new context instead of mutating one; fresh ids come from a
    caller-supplied supply. */
module Questions {
  import opened Results
  import opened Text
  import opened Seqs
  import opened Types

  /** The wizard's working context: the model being built and the raw
      answers recorded so far (the appliers leave `answers` alone). */
  datatype Ctx = Ctx(m: ProcessModel, answers: map<string, Raw>)

  /** Fresh ids for the lanes and steps an answer creates, by position. */
  datatype Ids = Ids(lane: nat -> string, step: nat -> string)

  /** The kinds of prompt, with the table's columns and the select's options. */
  datatype Kind = Input | Multi | Table(columns: seq<string>) | Select(options: seq<string>)

  /** A question's `validate`: an error message, or `None` to accept. */
  type Validator = (Raw, Ctx) -> Option<string>

  /** A question's `onAnswer`: the context the answer leads to. */
  type Applier = (Raw, Ctx, Ids) -> Ctx

  /** A fixed destination, or the review's choice between two. */
  datatype Route = Goto(to: string) | YesElse(yes: string, no: string)

  datatype Question = Question(
    id: string,
    kind: Kind,
    prompt: string,
    help: string,
    validate: Option<Validator>,
    onAnswer: Option<Applier>,
    next: Route)

  /** The destination that ends the wizard. */
  const Done := "generate"

  const QuestionIds: seq<string> :=
    ["name", "goal", "trigger", "lanes", "happy", "metrics", "review"]

  const AskName := Question("name", Input, "Process name", "e.g., Customer Onboarding",
    Some((v: Raw, ctx: Ctx) => ValidateText(v)),
    Some((v: Raw, ctx: Ctx, ids: Ids) => ApplyName(v, ctx)), Goto("goal"))

  const AskGoal := Question("goal", Input, "What outcome should be guaranteed?", "e.g., Account activated",
    Some((v: Raw, ctx: Ctx) => ValidateText(v)),
    Some((v: Raw, ctx: Ctx, ids: Ids) => ApplyGoal(v, ctx)), Goto("trigger"))

  const AskTrigger := Question("trigger", Input, "What starts the process?", "e.g., Signed contract received",
    Some((v: Raw, ctx: Ctx) => ValidateText(v)),
    Some((v: Raw, ctx: Ctx, ids: Ids) => ApplyTrigger(v, ctx)), Goto("lanes"))

  const AskLanes := Question("lanes", Multi, "Who is involved? (teams/roles → lanes)", "Add 1–6 lanes",
    Some((v: Raw, ctx: Ctx) => ValidateLanes(v)),
    Some((v: Raw, ctx: Ctx, ids: Ids) => ApplyLanes(v, ctx, ids)), Goto("happy"))

  const AskHappy := Question("happy", Table(["Action", "Lane"]),
    "Happy path — actions to reach the goal (verb‑first)", "Add actions and map each to a lane.",
    Some((v: Raw, ctx: Ctx) => ValidateHappy(v, ctx)),
    Some((v: Raw, ctx: Ctx, ids: Ids) => ApplyHappy(v, ctx, ids)), Goto("metrics"))

  const AskMetrics := Question("metrics", Multi, "What will you measure? (optional)",
    "e.g., Lead time, First‑pass yield",
    None, Some((v: Raw, ctx: Ctx, ids: Ids) => ApplyMetrics(v, ctx)), Goto("review"))

  const AskReview := Question("review", Select(["Yes — continue", "No — restart"]),
    "Ready to generate and fine‑tune?", "You can still edit after",
    None, None, YesElse(Done, "name"))

  /** The question table, in order. */
  const QuestionTable: seq<Question> :=
    [AskName, AskGoal, AskTrigger, AskLanes, AskHappy, AskMetrics, AskReview]

  // ----- JavaScript coercions of a raw answer

  /** What `String(o)` gives for a plain object. */
  const ObjectText := "[object Object]"

  /** The array's elements as `String` renders them. */
  function ItemTexts(v: Raw): (r: seq<string>)
    ensures v.Items? ==> r == v.xs
    ensures v.Rows? ==> |r| == |v.rows| && forall k :: 0 <= k < |r| ==> r[k] == ObjectText
    ensures !v.IsArray() ==> r == []
  {
    match v
    case Items(xs) => xs
    case Rows(rows) => seq(|rows|, _ => ObjectText)
    case _ => []
  }

  /** `String(v)`: arrays are joined with commas. */
  function Str(v: Raw): (r: string)
    ensures v.Text? ==> r == v.s
    ensures v.Absent? ==> r == "undefined"
    ensures v.IsArray() && |ItemTexts(v)| > 0 ==> StartsWith(r, ItemTexts(v)[0])
    ensures v.IsArray() && |ItemTexts(v)| == 0 ==> r == ""
    ensures v.IsArray() ==> r == Join(ItemTexts(v), ",")
  {
    match v
    case Text(s) => s
    case Absent => "undefined"
    case _ => Join(ItemTexts(v), ",")
  }

  /** `String(v || "")`: a missing answer reads as the empty string. */
  function StrOr(v: Raw): (r: string)
    ensures v.Absent? ==> r == ""
    ensures v.Text? ==> r == v.s
    ensures !v.Absent? ==> r == Str(v)
  {
    if v.Absent? then "" else Str(v)
  }

  /** `Array.isArray(v) ? v : []` read as `{Action, Lane}` rows; a plain string
      element has neither field, so it reads as a blank row. */
  function TableRows(v: Raw): (r: seq<Row>)
    ensures v.Rows? ==> r == v.rows
    ensures |r| == |ItemTexts(v)|
    ensures v.Items? ==> forall k :: 0 <= k < |r| ==> r[k] == Row("", "")
  {
    match v
    case Rows(rows) => rows
    case Items(xs) => seq(|xs|, _ => Row("", ""))
    case _ => []
  }

  // ----- validators

  const MsgRequired := "Required"
  const MsgNoLane := "Add at least one lane"
  const MsgNoStep := "Add at least one step"
  const MsgNoAction := "Each step needs an Action label"
  const MsgBadLane := "Each step must be mapped to an existing lane"

  /** The name, goal and trigger validator. */
  function ValidateText(v: Raw): (r: Option<string>)
    ensures r.Some? <==> Trim(StrOr(v)) == ""
    ensures r.Some? ==> r.value == MsgRequired
  {
    if Trim(StrOr(v)) != "" then None else Some(MsgRequired)
  }

  /** The lanes validator: a non-empty array. */
  function ValidateLanes(v: Raw): (r: Option<string>)
    ensures r.None? <==> (v.Items? && |v.xs| > 0) || (v.Rows? && |v.rows| > 0)
    ensures r.Some? ==> r.value == MsgNoLane
  {
    if v.IsArray() && |ItemTexts(v)| > 0 then None else Some(MsgNoLane)
  }

  /** A row passes: a non-blank Action and a Lane naming an existing lane
      (compared as is, without trimming). */
  predicate RowOk(row: Row, names: seq<string>) {
    Trim(row.action) != "" && row.lane in names
  }

  /** The complaint about a failing row: the Action is checked first. */
  function RowError(row: Row): string {
    if Trim(row.action) == "" then MsgNoAction else MsgBadLane
  }

  /** Selects the rows that pass. */
  function RowPasses(names: seq<string>): Row -> bool {
    (row: Row) => RowOk(row, names)
  }

  /** The row loop: the first failing row decides the message, which is
      one of the two row messages. */
  function CheckRows(rows: seq<Row>, names: seq<string>): (r: Option<string>)
    ensures r.None? <==> forall k :: 0 <= k < |rows| ==> RowOk(rows[k], names)
    ensures r.Some? ==> r.value == MsgNoAction || r.value == MsgBadLane
  {
    var k := FirstFailing(rows, RowPasses(names));
    if k == |rows| then None else Some(RowError(rows[k]))
  }

  /** When row `k` is the first to fail, its complaint is the one reported. */
  lemma CheckRowsReportsFirst(rows: seq<Row>, names: seq<string>, k: nat)
    requires k < |rows| && !RowOk(rows[k], names)
    requires forall j :: 0 <= j < k ==> RowOk(rows[j], names)
    ensures CheckRows(rows, names) == Some(RowError(rows[k]))
  {
    var ok := RowPasses(names);
    assert forall j :: 0 <= j < k ==> ok(rows[j]);
    FirstFailingAt(rows, ok, k);
  }

  /** The happy-path validator. */
  function ValidateHappy(v: Raw, ctx: Ctx): (r: Option<string>)
    ensures |TableRows(v)| == 0 ==> r == Some(MsgNoStep)
    ensures r.None? <==>
      |TableRows(v)| > 0 && forall k :: 0 <= k < |TableRows(v)| ==> RowOk(TableRows(v)[k], LaneNames(ctx.m.lanes))
    ensures |TableRows(v)| > 0 ==> r == CheckRows(TableRows(v), LaneNames(ctx.m.lanes))
  {
    var rows := TableRows(v);
    if |rows| == 0 then Some(MsgNoStep) else CheckRows(rows, LaneNames(ctx.m.lanes))
  }

  // ----- appliers

  /** The name applier. */
  function ApplyName(v: Raw, ctx: Ctx): (r: Ctx)
    ensures r.m.name == Trim(StrOr(v))
    ensures r.(m := r.m.(name := ctx.m.name)) == ctx
  {
    ctx.(m := ctx.m.(name := Trim(StrOr(v))))
  }

  /** The goal applier. */
  function ApplyGoal(v: Raw, ctx: Ctx): (r: Ctx)
    ensures r.m.goal == Trim(StrOr(v))
    ensures r.(m := r.m.(goal := ctx.m.goal)) == ctx
  {
    ctx.(m := ctx.m.(goal := Trim(StrOr(v))))
  }

  /** The trigger applier. */
  function ApplyTrigger(v: Raw, ctx: Ctx): (r: Ctx)
    ensures r.m.trigger == Trim(StrOr(v))
    ensures r.(m := r.m.(trigger := ctx.m.trigger)) == ctx
  {
    ctx.(m := ctx.m.(trigger := Trim(StrOr(v))))
  }

  /** Each array element trimmed, in order. */
  function Trimmed(xs: seq<string>): (r: seq<string>)
    ensures |r| == |xs|
    ensures forall k :: 0 <= k < |xs| ==> r[k] == Trim(xs[k])
  {
    seq(|xs|, k requires 0 <= k < |xs| => Trim(xs[k]))
  }

  /** `.filter(Boolean)` on strings. */
  function NonEmpty(): string -> bool {
    (s: string) => s != ""
  }

  /** The lane names an answer to "lanes" yields: trimmed, blanks dropped. */
  function LaneNamesOf(v: Raw): seq<string> {
    Filter(Trimmed(ItemTexts(v)), NonEmpty())
  }

  /** Every lane name is non-blank and trimmed, the names keep the answer's
      order, and each non-blank trimmed entry survives as often as it was
      given. */
  lemma LaneNamesOfSpec(v: Raw)
    ensures forall n :: n in LaneNamesOf(v) ==> n != "" && Trim(n) == n
    ensures IsSubseq(LaneNamesOf(v), Trimmed(ItemTexts(v)))
    ensures forall n :: n != "" ==> multiset(LaneNamesOf(v))[n] == multiset(Trimmed(ItemTexts(v)))[n]
  {
    TrimmedAreTrimmed(ItemTexts(v));
    FilterIsSubseq(Trimmed(ItemTexts(v)), NonEmpty());
  }

  /** Every element of `Trimmed(xs)` is its own trim. */
  lemma TrimmedAreTrimmed(xs: seq<string>)
    ensures forall n :: n in Trimmed(xs) ==> Trim(n) == n
  {
    forall n | n in Trimmed(xs) ensures Trim(n) == n {
      var k :| 0 <= k < |xs| && Trimmed(xs)[k] == n;
      TrimIdempotent(xs[k]);
    }
  }

  /** One lane per name, in order, the `k`th with id `ids.lane(k)`. */
  function FreshLanes(names: seq<string>, ids: Ids): (r: seq<Lane>)
    ensures LaneNames(r) == names
    ensures |r| == |names| && forall k :: 0 <= k < |r| ==> r[k].id == ids.lane(k)
  {
    var r := seq(|names|, k requires 0 <= k < |names| => Lane(ids.lane(k), names[k]));
    assert LaneNames(r) == names;
    r
  }

  /** The lanes applier: one fresh lane per name, in order, replacing the old
      lanes. */
  function ApplyLanes(v: Raw, ctx: Ctx, ids: Ids): Ctx {
    ctx.(m := ctx.m.(lanes := FreshLanes(LaneNamesOf(v), ids)))
  }

  /** The lanes applier names the new lanes after the answer, in order, gives
      the k-th the k-th fresh id, and leaves everything but the lanes alone. */
  lemma ApplyLanesSpec(v: Raw, ctx: Ctx, ids: Ids)
    ensures var r := ApplyLanes(v, ctx, ids);
      && LaneNames(r.m.lanes) == LaneNamesOf(v)
      && (forall k :: 0 <= k < |r.m.lanes| ==> r.m.lanes[k].id == ids.lane(k))
      && r.(m := r.m.(lanes := ctx.m.lanes)) == ctx
  {
  }

  /** `new Map(lanes.map((l) => [l.name, l.id])).get(name)`: later entries
      overwrite earlier ones, so this is the id of the LAST lane so named. */
  function LastIdNamed(lanes: seq<Lane>, name: string): (r: Option<string>)
    ensures r.None? <==> forall k :: 0 <= k < |lanes| ==> lanes[k].name != name
    ensures r.Some? ==>
      exists k :: 0 <= k < |lanes| && lanes[k].name == name && lanes[k].id == r.value
        && forall j :: k < j < |lanes| ==> lanes[j].name != name
  {
    match LastWhere(lanes, Named(name))
    case Some(k) => Some(lanes[k].id)
    case None => None
  }

  /** Selects the lanes called `name`. */
  function Named(name: string): Lane -> bool {
    (l: Lane) => l.name == name
  }

  /** `byName.get(laneName) || fallbackLaneId`: an unknown name, or a known
      one whose id is empty, falls back to the first lane. */
  function ResolveLane(lanes: seq<Lane>, name: string): (r: string)
    requires |lanes| > 0
    ensures HasLane(lanes, r)
    ensures name !in LaneNames(lanes) ==> r == lanes[0].id
    ensures name in LaneNames(lanes) && (forall l :: l in lanes ==> l.id != "") ==>
      exists l :: l in lanes && l.id == r && l.name == name
    ensures LastIdNamed(lanes, name).Some? && LastIdNamed(lanes, name).value != "" ==>
      r == LastIdNamed(lanes, name).value
    ensures !(LastIdNamed(lanes, name).Some? && LastIdNamed(lanes, name).value != "") ==>
      r == lanes[0].id
  {
    assert lanes[0] in lanes;
    match LastIdNamed(lanes, name)
    case Some(id) =>
      if id != "" then
        var k :| 0 <= k < |lanes| && lanes[k].name == name && lanes[k].id == id;
        assert lanes[k] in lanes;
        id
      else lanes[0].id
    case None => lanes[0].id
  }

  /** Two lanes share a name: the map keeps the later entry, so a row naming
      them lands on the second lane. */
  lemma ResolveLaneDuplicateName()
    ensures ResolveLane([Lane("a", "Sales"), Lane("b", "Sales")], "Sales") == "b"
  {
    var lanes := [Lane("a", "Sales"), Lane("b", "Sales")];
    assert lanes[1].name == "Sales";
  }

  const GeneralLane := "General"

  /** The lanes the happy applier works with: a single "General" lane if
      there are none. */
  function LanesOrGeneral(lanes: seq<Lane>, ids: Ids): (r: seq<Lane>)
    ensures |lanes| == 0 ==> r == [Lane(ids.lane(0), GeneralLane)]
    ensures |lanes| > 0 ==> r == lanes
  {
    if |lanes| == 0 then [Lane(ids.lane(0), GeneralLane)] else lanes
  }

  /** The happy applier: one step per row, in row order, labelled with the
      trimmed Action and placed on the lane so named (else the first lane). */
  function ApplyHappy(v: Raw, ctx: Ctx, ids: Ids): (r: Ctx)
    ensures |ctx.m.lanes| == 0 ==> r.m.lanes == [Lane(ids.lane(0), GeneralLane)]
    ensures |ctx.m.lanes| > 0 ==> r.m.lanes == ctx.m.lanes
    ensures |r.m.steps| == |TableRows(v)|
    ensures forall k :: 0 <= k < |r.m.steps| ==>
      && r.m.steps[k].id == ids.step(k)
      && r.m.steps[k].text == Trim(TableRows(v)[k].action)
      && r.m.steps[k].laneId == ResolveLane(r.m.lanes, TableRows(v)[k].lane)
    ensures StepsReferToLanes(r.m.lanes, r.m.steps)
    ensures r.(m := r.m.(lanes := ctx.m.lanes, steps := ctx.m.steps)) == ctx
  {
    var lanes := LanesOrGeneral(ctx.m.lanes, ids);
    var rows := TableRows(v);
    var steps := seq(|rows|, k requires 0 <= k < |rows| =>
      Step(ids.step(k), Trim(rows[k].action), ResolveLane(lanes, rows[k].lane)));
    assert forall s :: s in steps ==> HasLane(lanes, s.laneId) by {
      forall s | s in steps ensures HasLane(lanes, s.laneId) {
        var k :| 0 <= k < |steps| && steps[k] == s;
        assert s.laneId == ResolveLane(lanes, rows[k].lane);
      }
    }
    ctx.(m := ctx.m.(lanes := lanes, steps := steps))
  }

  /** The metrics applier: the array as submitted, or an empty one. */
  function ApplyMetrics(v: Raw, ctx: Ctx): (r: Ctx)
    ensures v.IsArray() ==> r.m.metrics == Some(v)
    ensures !v.IsArray() ==> r.m.metrics == Some(Items([]))
    ensures r.(m := r.m.(metrics := ctx.m.metrics)) == ctx
  {
    ctx.(m := ctx.m.(metrics := Some(if v.IsArray() then v else Items([]))))
  }

  /** The stored metrics are always an array, so submitting them again
      changes nothing. */
  lemma ApplyMetricsIdempotent(v: Raw, ctx: Ctx)
    ensures ApplyMetrics(v, ctx).m.metrics.Some?
    ensures ApplyMetrics(v, ctx).m.metrics.value.IsArray()
    ensures var r := ApplyMetrics(v, ctx); ApplyMetrics(r.m.metrics.value, r) == r
  {
  }

  // ----- routing

  /** The `next` resolver: the review goes on only for an answer starting with
      "Yes". */
  function NextId(route: Route, v: Raw): (r: string)
    ensures route.Goto? ==> r == route.to
    ensures route.YesElse? ==> (r == route.yes <==> StartsWith(Str(v), "Yes")) || route.yes == route.no
    ensures route.YesElse? ==> r == route.yes || r == route.no
  {
    match route
    case Goto(to) => to
    case YesElse(yes, no) => if StartsWith(Str(v), "Yes") then yes else no
  }

  /** What submitting an answer does: a validator's message keeps the wizard
      where it is; otherwise the applier runs and the route is followed. */
  datatype Outcome = Rejected(error: string) | Advanced(ctx: Ctx, next: string)

  /** One submission: validate, then apply and route. */
  function Submit(q: Question, v: Raw, ctx: Ctx, ids: Ids): (r: Outcome)
    ensures r.Rejected? <==> q.validate.Some? && q.validate.value(v, ctx).Some?
    ensures r.Rejected? ==> q.validate.Some? && r.error == q.validate.value(v, ctx).value
    ensures r.Advanced? && q.onAnswer.None? ==> r.ctx == ctx
    ensures r.Advanced? && q.onAnswer.Some? ==> r.ctx == q.onAnswer.value(v, ctx, ids)
    ensures r.Advanced? ==> r.next == NextId(q.next, v)
  {
    var err := if q.validate.Some? then q.validate.value(v, ctx) else None;
    if err.Some? then Rejected(err.value)
    else Advanced(if q.onAnswer.Some? then q.onAnswer.value(v, ctx, ids) else ctx, NextId(q.next, v))
  }

  // ----- properties of the table

  /** The ids are the seven questions in order, and the fixed routes chain
      each question to the next one; only the review routes dynamically. */
  lemma TableChain()
    ensures |QuestionTable| == |QuestionIds|
    ensures forall k :: 0 <= k < |QuestionTable| ==> QuestionTable[k].id == QuestionIds[k]
    ensures forall k :: 0 <= k < |QuestionTable| - 1 ==> QuestionTable[k].next == Goto(QuestionTable[k + 1].id)
    ensures QuestionTable[|QuestionTable| - 1].next == YesElse(Done, QuestionTable[0].id)
    ensures QuestionTable[5].validate.None? && QuestionTable[6].validate.None? && QuestionTable[6].onAnswer.None?
  {
  }

  /** Submitting to any question of the table either stays, or reaches a
      question of the table, or ends the wizard. */
  lemma RoutesStayInTable(k: nat, v: Raw, ctx: Ctx, ids: Ids)
    requires k < |QuestionTable|
    ensures var r := Submit(QuestionTable[k], v, ctx, ids);
      r.Advanced? ==> r.next in QuestionIds || r.next == Done
  {
  }

  /** The review goes to generation exactly for an answer starting with
      "Yes", and back to the first question otherwise. */
  lemma ReviewRoute(v: Raw, ctx: Ctx, ids: Ids)
    ensures Submit(AskReview, v, ctx, ids) ==
      Advanced(ctx, if StartsWith(Str(v), "Yes") then Done else "name")
  {
  }

  /** The name question rejects exactly the blank answers, with "Required";
      an accepted answer sets the name, trimmed, and moves on to the goal. */
  lemma NameQuestion(v: Raw, ctx: Ctx, ids: Ids)
    ensures var r := Submit(AskName, v, ctx, ids);
      && (r.Rejected? <==> Trim(StrOr(v)) == "")
      && (r.Rejected? ==> r.error == MsgRequired)
      && (r.Advanced? ==> r.next == "goal" && r.ctx == ApplyName(v, ctx))
  {
    SubmitAccepted(AskName, v, ctx, ids);
  }

  /** The goal question rejects exactly the blank answers, with "Required";
      an accepted answer sets the goal, trimmed, and moves on to the trigger. */
  lemma GoalQuestion(v: Raw, ctx: Ctx, ids: Ids)
    ensures var r := Submit(AskGoal, v, ctx, ids);
      && (r.Rejected? <==> Trim(StrOr(v)) == "")
      && (r.Rejected? ==> r.error == MsgRequired)
      && (r.Advanced? ==> r.next == "trigger" && r.ctx == ApplyGoal(v, ctx))
  {
    SubmitAccepted(AskGoal, v, ctx, ids);
  }

  /** The trigger question rejects exactly the blank answers, with
      "Required"; an accepted answer sets the trigger, trimmed, and moves on
      to the lanes. */
  lemma TriggerQuestion(v: Raw, ctx: Ctx, ids: Ids)
    ensures var r := Submit(AskTrigger, v, ctx, ids);
      && (r.Rejected? <==> Trim(StrOr(v)) == "")
      && (r.Rejected? ==> r.error == MsgRequired)
      && (r.Advanced? ==> r.next == "lanes" && r.ctx == ApplyTrigger(v, ctx))
  {
    SubmitAccepted(AskTrigger, v, ctx, ids);
  }

  /** For a question with a validator and an applier: the validator's
      message rejects the answer; otherwise the applier runs. */
  lemma SubmitAccepted(q: Question, v: Raw, ctx: Ctx, ids: Ids)
    requires q.validate.Some? && q.onAnswer.Some?
    ensures var r := Submit(q, v, ctx, ids);
      && (r.Rejected? <==> q.validate.value(v, ctx).Some?)
      && (r.Rejected? ==> r.error == q.validate.value(v, ctx).value)
      && (r.Advanced? ==> r.ctx == q.onAnswer.value(v, ctx, ids) && r.next == NextId(q.next, v))
  {
  }

  /** The lanes question rejects anything but a non-empty list, and an
      accepted answer replaces the lanes. */
  lemma LanesQuestion(v: Raw, ctx: Ctx, ids: Ids)
    ensures var r := Submit(AskLanes, v, ctx, ids);
      && (r.Rejected? <==> !((v.Items? && |v.xs| > 0) || (v.Rows? && |v.rows| > 0)))
      && (r.Rejected? ==> r.error == MsgNoLane)
      && (r.Advanced? ==> r.next == "happy" && r.ctx == ApplyLanes(v, ctx, ids))
  {
    var r := Submit(AskLanes, v, ctx, ids);
    SubmitAccepted(AskLanes, v, ctx, ids);
  }

  /** The happy-path question runs its validator, and an accepted answer
      builds the steps. */
  lemma HappyQuestion(v: Raw, ctx: Ctx, ids: Ids)
    ensures var r := Submit(AskHappy, v, ctx, ids);
      && (r.Rejected? <==> ValidateHappy(v, ctx).Some?)
      && (r.Rejected? ==> r.error == ValidateHappy(v, ctx).value)
      && (r.Advanced? ==> r.next == "metrics" && r.ctx == ApplyHappy(v, ctx, ids))
  {
    var r := Submit(AskHappy, v, ctx, ids);
    SubmitAccepted(AskHappy, v, ctx, ids);
  }

  /** A non-empty table is rejected with the complaint about its first
      failing row. */
  lemma HappyReportsFirst(v: Raw, ctx: Ctx, k: nat)
    requires k < |TableRows(v)| && !RowOk(TableRows(v)[k], LaneNames(ctx.m.lanes))
    requires forall j :: 0 <= j < k ==> RowOk(TableRows(v)[j], LaneNames(ctx.m.lanes))
    ensures ValidateHappy(v, ctx) == Some(RowError(TableRows(v)[k]))
  {
    CheckRowsReportsFirst(TableRows(v), LaneNames(ctx.m.lanes), k);
  }

  /** The metrics question accepts every answer and records it. */
  lemma MetricsQuestion(v: Raw, ctx: Ctx, ids: Ids)
    ensures Submit(AskMetrics, v, ctx, ids) == Advanced(ApplyMetrics(v, ctx), "review")
  {
  }

  /** The happy validator accepts rows only when there are lanes, so an
      accepted answer never needs the "General" fallback lane. */
  lemma HappyAcceptedNeedsLanes(v: Raw, ctx: Ctx)
    requires ValidateHappy(v, ctx).None?
    ensures |ctx.m.lanes| > 0
  {
    var rows := TableRows(v);
    assert RowOk(rows[0], LaneNames(ctx.m.lanes));
  }

  /** After an accepted happy answer (and with non-empty lane ids, as `uid`
      makes them), no step falls back: each lies on a lane with the name its
      row gave, and keeps the row's trimmed Action. */
  lemma HappyAcceptedNoFallback(v: Raw, ctx: Ctx, ids: Ids)
    requires ValidateHappy(v, ctx).None?
    requires forall l :: l in ctx.m.lanes ==> l.id != ""
    ensures var r := ApplyHappy(v, ctx, ids);
      && r.m.lanes == ctx.m.lanes
      && |r.m.steps| == |TableRows(v)| > 0
      && forall k :: 0 <= k < |r.m.steps| ==>
           && Trim(TableRows(v)[k].action) == r.m.steps[k].text != ""
           && exists l :: l in r.m.lanes && l.id == r.m.steps[k].laneId && l.name == TableRows(v)[k].lane
  {
    HappyAcceptedNeedsLanes(v, ctx);
    var r := ApplyHappy(v, ctx, ids);
    forall k | 0 <= k < |r.m.steps|
      ensures Trim(TableRows(v)[k].action) == r.m.steps[k].text != ""
      ensures exists l :: l in r.m.lanes && l.id == r.m.steps[k].laneId && l.name == TableRows(v)[k].lane
    {
      AcceptedStep(v, ctx, ids, k);
    }
  }

  /** Step `k` of an accepted happy answer. */
  lemma AcceptedStep(v: Raw, ctx: Ctx, ids: Ids, k: nat)
    requires ValidateHappy(v, ctx).None? && |ctx.m.lanes| > 0
    requires forall l :: l in ctx.m.lanes ==> l.id != ""
    requires k < |TableRows(v)|
    ensures var r := ApplyHappy(v, ctx, ids);
      && Trim(TableRows(v)[k].action) == r.m.steps[k].text != ""
      && exists l :: l in r.m.lanes && l.id == r.m.steps[k].laneId && l.name == TableRows(v)[k].lane
  {
    var row := TableRows(v)[k];
    assert RowOk(row, LaneNames(ctx.m.lanes));
    var s := ApplyHappy(v, ctx, ids).m.steps[k];
    assert s.text == Trim(row.action) && s.laneId == ResolveLane(ctx.m.lanes, row.lane);
  }
}

=== FILE: results.dfy ===
/** Optional values and success-or-failure results shared by every module. */
module Results {

  /** A value that may be missing (the source's `undefined`). */
  datatype Option<+T> = None | Some(value: T) {
    function GetOr(default: T): T {
      match this
      case Some(v) => v
      case None => default
    }
  }

  /** Either the computed value or the reason it could not be computed. */
  datatype Result<+R, +E> = Success(value: R) | Failure(error: E)
}

=== FILE: sanitize.dfy ===
/** The label sanitizer `esc`: makes free text safe inside a Mermaid
    flowchart node label (`id["..."]`). */
module Sanitize {
  import opened Text

  /** The six global substitutions, in the order the source applies them:
      backslashes doubled first, then newline to space, square brackets to
      round ones, and angle brackets to their HTML entities. */
  function Substitute(x: string): string {
    var a := Replace(x, '\\', "\\\\");
    var b := Replace(a, '\n', " ");
    var c := Replace(b, '[', "(");
    var d := Replace(c, ']', ")");
    var e := Replace(d, '<', "&lt;");
    Replace(e, '>', "&gt;")
  }

  /** `esc`: the substitutions followed by a trim. */
  function Esc(x: string): (r: string)
    ensures '[' !in r && ']' !in r
    ensures '<' !in r && '>' !in r
    ensures '\n' !in r
    ensures multiset(r)['\\'] == 2 * multiset(x)['\\']
    ensures IsTrimmed(r)
  {
    SubstituteIsPerCharacter(x);
    EscapeEachCounts(x);
    TrimOfEscaped(x, Substitute(x));
    Trim(Substitute(x))
  }

  /** Trimming an escaped text keeps it escaped. */
  lemma TrimOfEscaped(x: string, s: string)
    requires '[' !in s && ']' !in s && '<' !in s && '>' !in s && '\n' !in s
    requires multiset(s)['\\'] == 2 * multiset(x)['\\']
    ensures '[' !in Trim(s) && ']' !in Trim(s)
    ensures '<' !in Trim(s) && '>' !in Trim(s)
    ensures '\n' !in Trim(s)
    ensures multiset(Trim(s))['\\'] == 2 * multiset(x)['\\']
  {
    TrimKeeps(s);
  }

  /** What one input character turns into. */
  function EscChar(c: char): string {
    if c == '\\' then "\\\\"
    else if c == '\n' then " "
    else if c == '[' then "("
    else if c == ']' then ")"
    else if c == '<' then "&lt;"
    else if c == '>' then "&gt;"
    else [c]
  }

  /** A single left-to-right pass substituting each character on its own. */
  function EscapeEach(x: string): string {
    if |x| == 0 then "" else EscChar(x[0]) + EscapeEach(x[1..])
  }

  /** The passes distribute over concatenation. */
  lemma SubstituteAppend(u: string, v: string)
    ensures Substitute(u + v) == Substitute(u) + Substitute(v)
  {
    var a1, a2 := Replace(u, '\\', "\\\\"), Replace(v, '\\', "\\\\");
    ReplaceAppend(u, v, '\\', "\\\\");
    var b1, b2 := Replace(a1, '\n', " "), Replace(a2, '\n', " ");
    ReplaceAppend(a1, a2, '\n', " ");
    var c1, c2 := Replace(b1, '[', "("), Replace(b2, '[', "(");
    ReplaceAppend(b1, b2, '[', "(");
    var d1, d2 := Replace(c1, ']', ")"), Replace(c2, ']', ")");
    ReplaceAppend(c1, c2, ']', ")");
    var e1, e2 := Replace(d1, '<', "&lt;"), Replace(d2, '<', "&lt;");
    ReplaceAppend(d1, d2, '<', "&lt;");
    ReplaceAppend(e1, e2, '>', "&gt;");
  }

  /** On a single character the six passes produce exactly `EscChar`: no
      later pass rewrites what an earlier one introduced. */
  lemma SubstituteChar(c: char)
    ensures Substitute([c]) == EscChar(c)
  {
    ReplaceOne(c, '\\', "\\\\");
    if c == '\\' {
      var t := "\\\\";
      ReplaceAbsent(t, '\n', " ");
      ReplaceAbsent(t, '[', "(");
      ReplaceAbsent(t, ']', ")");
      ReplaceAbsent(t, '<', "&lt;");
      ReplaceAbsent(t, '>', "&gt;");
    } else {
      ReplaceOne(c, '\n', " ");
      var b := if c == '\n' then ' ' else c;
      ReplaceOne(b, '[', "(");
      var d := if b == '[' then '(' else b;
      ReplaceOne(d, ']', ")");
      var e := if d == ']' then ')' else d;
      ReplaceOne(e, '<', "&lt;");
      if e == '<' {
        ReplaceAbsent("&lt;", '>', "&gt;");
      } else {
        ReplaceOne(e, '>', "&gt;");
      }
    }
  }

  /** The ordered passes equal a one-pass, per-character substitution: no
      pass rewrites what an earlier one introduced. */
  lemma {:induction false} SubstituteIsPerCharacter(x: string)
    ensures Substitute(x) == EscapeEach(x)
  {
    if |x| > 0 {
      assert x == [x[0]] + x[1..];
      SubstituteAppend([x[0]], x[1..]);
      SubstituteChar(x[0]);
      SubstituteIsPerCharacter(x[1..]);
    }
  }

  /** So every `[` becomes `(`, every `]` becomes `)`, every `<` becomes
      `&lt;`, every `>` becomes `&gt;`, every newline becomes one space and
      every backslash becomes two, before the trim. */
  lemma EscIsPerCharacter(x: string)
    ensures Esc(x) == Trim(EscapeEach(x))
  {
    SubstituteIsPerCharacter(x);
  }

  /** The per-character substitution leaves no bracket, angle bracket or
      newline and doubles the backslashes. */
  lemma {:induction false} EscapeEachCounts(x: string)
    ensures '[' !in EscapeEach(x) && ']' !in EscapeEach(x)
    ensures '<' !in EscapeEach(x) && '>' !in EscapeEach(x)
    ensures '\n' !in EscapeEach(x)
    ensures multiset(EscapeEach(x))['\\'] == 2 * multiset(x)['\\']
  {
    if |x| > 0 {
      assert x == [x[0]] + x[1..];
      EscapeEachCounts(x[1..]);
      EscCharFacts(x[0]);
      var head, rest := EscChar(x[0]), EscapeEach(x[1..]);
      assert multiset(head)['\\'] == if x[0] == '\\' then 2 else 0;
      assert EscapeEach(x) == head + rest;
      assert multiset(EscapeEach(x)) == multiset(head) + multiset(rest);
      assert multiset(x) == multiset{x[0]} + multiset(x[1..]);
    }
  }

  /** What a single character's replacement contains: no special character,
      and a backslash only when the character was one. */
  lemma EscCharFacts(c: char)
    ensures '[' !in EscChar(c) && ']' !in EscChar(c)
    ensures '<' !in EscChar(c) && '>' !in EscChar(c)
    ensures '\n' !in EscChar(c)
    ensures c == '\\' ==> EscChar(c) == ['\\', '\\']
    ensures c != '\\' ==> '\\' !in EscChar(c)
  {
    if c == '<' {
      assert EscChar(c) == ['&', 'l', 't', ';'];
    } else if c == '>' {
      assert EscChar(c) == ['&', 'g', 't', ';'];
    } else if c !in "\\\n[]" {
      assert EscChar(c) == [c];
    }
  }

  /** Text that needs no escaping and is already trimmed comes back as is. */
  lemma EscFixpoint(x: string)
    requires '\\' !in x && '\n' !in x && '[' !in x && ']' !in x && '<' !in x && '>' !in x
    requires IsTrimmed(x)
    ensures Esc(x) == x
  {
    ReplaceAbsent(x, '\\', "\\\\");
    ReplaceAbsent(x, '\n', " ");
    ReplaceAbsent(x, '[', "(");
    ReplaceAbsent(x, ']', ")");
    ReplaceAbsent(x, '<', "&lt;");
    ReplaceAbsent(x, '>', "&gt;");
  }

  /** `esc` is idempotent exactly on text without backslashes: otherwise the
      second application doubles the backslashes again. */
  lemma EscIdempotentIff(x: string)
    ensures Esc(Esc(x)) == Esc(x) <==> '\\' !in x
  {
    var once := Esc(x);
    if '\\' !in x {
      assert multiset(x)['\\'] == 0;
      assert '\\' !in once;
      EscFixpoint(once);
    } else {
      assert multiset(Esc(once))['\\'] == 4 * multiset(x)['\\'];
    }
  }
}

=== FILE: seqs.dfy ===
/** Sequence surgery used by the editor and the wizard: order-preserving
    filtering, removal and insertion at an index, and moving one element. */
module Seqs {
  import opened Results

  /** `a` lists some of `b`'s elements, in `b`'s order. */
  predicate IsSubseq<T(==)>(a: seq<T>, b: seq<T>)
    decreases |b|
  {
    if |a| == 0 then true
    else if |b| == 0 then false
    else (a[0] == b[0] && IsSubseq(a[1..], b[1..])) || IsSubseq(a, b[1..])
  }

  /** Concatenation is associative. */
  lemma Assoc<T>(x: seq<T>, y: seq<T>, z: seq<T>)
    ensures (x + y) + z == x + (y + z)
  {
  }

  /** Occurrences in the two halves of a split add up. */
  lemma CountSplit<T>(s: seq<T>, i: nat, x: T)
    requires i <= |s|
    ensures multiset(s)[x] == multiset(s[..i])[x] + multiset(s[i..])[x]
  {
    assert s == s[..i] + s[i..];
  }

  /** Occurrences in a concatenation add up. */
  lemma CountAppend<T>(a: seq<T>, b: seq<T>, x: T)
    ensures multiset(a + b)[x] == multiset(a)[x] + multiset(b)[x]
  {
  }

  /** A subsequence holds nothing its host does not. */
  lemma {:induction false} SubseqMembers<T>(a: seq<T>, b: seq<T>)
    requires IsSubseq(a, b)
    ensures forall x :: x in a ==> x in b
    decreases |b|
  {
    if |a| > 0 {
      if a[0] == b[0] && IsSubseq(a[1..], b[1..]) {
        SubseqMembers(a[1..], b[1..]);
        assert a == [a[0]] + a[1..];
      } else {
        SubseqMembers(a, b[1..]);
      }
    }
  }

  /** The elements of `s` that satisfy `p`, in their original order
      (JavaScript's `Array.prototype.filter`). */
  function Filter<T(==,!new)>(s: seq<T>, p: T -> bool): (r: seq<T>)
    ensures forall x :: multiset(r)[x] == if p(x) then multiset(s)[x] else 0
    ensures forall x :: x in r <==> x in s && p(x)
    ensures |r| <= |s|
    ensures (forall k :: 0 <= k < |s| ==> p(s[k])) ==> r == s
  {
    if |s| == 0 then []
    else
      assert s == [s[0]] + s[1..];
      var rest := Filter(s[1..], p);
      FilterCounts(s, rest, p);
      if p(s[0]) then [s[0]] + rest else rest
  }

  /** The counting step of `Filter`: keeping the head when it passes extends
      the count property from the tail to the whole sequence. */
  lemma FilterCounts<T(!new)>(s: seq<T>, rest: seq<T>, p: T -> bool)
    requires |s| > 0
    requires forall x :: multiset(rest)[x] == if p(x) then multiset(s[1..])[x] else 0
    ensures var r := if p(s[0]) then [s[0]] + rest else rest;
      forall x :: multiset(r)[x] == if p(x) then multiset(s)[x] else 0
  {
    var r := if p(s[0]) then [s[0]] + rest else rest;
    forall x
      ensures multiset(r)[x] == if p(x) then multiset(s)[x] else 0
    {
      CountSplit(s, 1, x);
      CountAppend([s[0]], rest, x);
      assert s[..1] == [s[0]];
    }
  }

  /** A filter that keeps everything is the identity. */
  lemma FilterKeepsAll<T(!new)>(s: seq<T>, p: T -> bool)
    requires forall x :: x in s ==> p(x)
    ensures Filter(s, p) == s
  {
  }

  /** What `Filter` keeps is a subsequence of its input. */
  lemma {:induction false} FilterIsSubseq<T(!new)>(s: seq<T>, p: T -> bool)
    ensures IsSubseq(Filter(s, p), s)
    decreases |s|
  {
    if |s| > 0 {
      FilterIsSubseq(s[1..], p);
      FilterStep(s, p);
      var r := Filter(s, p);
      if p(s[0]) {
        assert r[0] == s[0] && r[1..] == Filter(s[1..], p);
      }
    }
  }

  /** Filtering away an appended element that fails the test. */
  lemma {:induction false} FilterDropsLast<T(!new)>(s: seq<T>, x: T, p: T -> bool)
    requires !p(x)
    ensures Filter(s + [x], p) == Filter(s, p)
  {
    if |s| == 0 {
      assert s + [x] == [x];
      assert [x][1..] == [];
    } else {
      assert (s + [x])[1..] == s[1..] + [x];
      FilterDropsLast(s[1..], x, p);
    }
  }

  /** One step of `Filter`, unfolded. */
  lemma FilterStep<T(!new)>(s: seq<T>, p: T -> bool)
    requires |s| > 0
    ensures Filter(s, p) == if p(s[0]) then [s[0]] + Filter(s[1..], p) else Filter(s[1..], p)
  {
  }

  /** `Filter` on a sequence with a known first element. */
  lemma FilterCons<T(!new)>(x: T, rest: seq<T>, p: T -> bool)
    ensures Filter([x] + rest, p) == (if p(x) then [x] else []) + Filter(rest, p)
  {
    assert ([x] + rest)[1..] == rest;
    FilterStep([x] + rest, p);
  }

  /** `Filter` on a one-element sequence. */
  lemma FilterOne<T(!new)>(x: T, p: T -> bool)
    ensures Filter([x], p) == if p(x) then [x] else []
  {
    FilterStep([x], p);
    assert [x][1..] == [];
  }

  /** `Filter` on a three-element sequence. */
  lemma FilterThree<T(!new)>(a: T, b: T, c: T, p: T -> bool)
    ensures Filter([a, b, c], p) ==
      (if p(a) then [a] else []) + ((if p(b) then [b] else []) + (if p(c) then [c] else []))
  {
    assert [a, b, c] == [a] + [b, c] && [b, c] == [b] + [c];
    FilterOne(c, p);
    FilterCons(b, [c], p);
    FilterCons(a, [b, c], p);
  }

  /** The index of the first element failing `ok`, or `|s|` if none does. */
  function FirstFailing<T>(s: seq<T>, ok: T -> bool): (k: nat)
    ensures k <= |s|
    ensures forall j :: 0 <= j < k ==> ok(s[j])
    ensures k < |s| ==> !ok(s[k])
  {
    if |s| == 0 || !ok(s[0]) then 0
    else
      var k := FirstFailing(s[1..], ok);
      assert forall j :: 1 <= j < |s| ==> s[j] == s[1..][j - 1];
      k + 1
  }

  /** The first failing element is the one `FirstFailing` finds. */
  lemma FirstFailingAt<T>(s: seq<T>, ok: T -> bool, k: nat)
    requires k < |s| && !ok(s[k])
    requires forall j :: 0 <= j < k ==> ok(s[j])
    ensures FirstFailing(s, ok) == k
  {
  }

  /** The index of the last element satisfying `p`, if any. */
  function LastWhere<T>(s: seq<T>, p: T -> bool): (r: Option<nat>)
    ensures r.None? <==> forall k :: 0 <= k < |s| ==> !p(s[k])
    ensures r.Some? ==> r.value < |s| && p(s[r.value])
    ensures r.Some? ==> forall j :: r.value < j < |s| ==> !p(s[j])
  {
    if |s| == 0 then None
    else if p(s[|s| - 1]) then Some(|s| - 1)
    else
      var r := LastWhere(s[..|s| - 1], p);
      assert forall k :: 0 <= k < |s| - 1 ==> s[..|s| - 1][k] == s[k];
      r
  }

  /** `s` without the element at index `i` (`splice(i, 1)`). */
  function RemoveAt<T>(s: seq<T>, i: nat): (r: seq<T>)
    requires i < |s|
    ensures |r| == |s| - 1
    ensures forall k :: 0 <= k < i ==> r[k] == s[k]
    ensures forall k :: i <= k < |r| ==> r[k] == s[k + 1]
    ensures multiset(r) + multiset{s[i]} == multiset(s)
  {
    assert s == s[..i] + [s[i]] + s[i + 1..];
    s[..i] + s[i + 1..]
  }

  /** Every sequence is a subsequence of itself. */
  lemma {:induction false} IsSubseqRefl<T>(s: seq<T>)
    ensures IsSubseq(s, s)
    decreases |s|
  {
    if |s| > 0 {
      IsSubseqRefl(s[1..]);
    }
  }

  /** Removing one element leaves a subsequence. */
  lemma {:induction false} RemoveAtIsSubseq<T>(s: seq<T>, i: nat)
    requires i < |s|
    ensures IsSubseq(RemoveAt(s, i), s)
    decreases i
  {
    var r := RemoveAt(s, i);
    if i == 0 {
      assert r == s[1..];
      IsSubseqRefl(s[1..]);
    } else {
      assert r[1..] == RemoveAt(s[1..], i - 1);
      RemoveAtIsSubseq(s[1..], i - 1);
    }
  }

  /** `s` with `x` inserted so that it sits at index `i` (`splice(i, 0, x)`). */
  function InsertAt<T>(s: seq<T>, i: nat, x: T): (r: seq<T>)
    requires i <= |s|
    ensures |r| == |s| + 1
    ensures r[i] == x
    ensures forall k :: 0 <= k < i ==> r[k] == s[k]
    ensures forall k :: i < k < |r| ==> r[k] == s[k - 1]
    ensures multiset(r) == multiset(s) + multiset{x}
  {
    assert s == s[..i] + s[i..];
    s[..i] + [x] + s[i..]
  }

  /** Removing what was just inserted gives back the original sequence. */
  lemma RemoveAfterInsert<T>(s: seq<T>, i: nat, x: T)
    requires i <= |s|
    ensures RemoveAt(InsertAt(s, i, x), i) == s
  {
    var r := RemoveAt(InsertAt(s, i, x), i);
    assert forall k :: 0 <= k < |s| ==> r[k] == s[k];
  }

  /** The element at `from` taken out and put back so that it sits at `to`. */
  function Move<T>(s: seq<T>, from: nat, to: nat): (r: seq<T>)
    requires from < |s| && to < |s|
    ensures |r| == |s|
    ensures r[to] == s[from]
    ensures RemoveAt(r, to) == RemoveAt(s, from)
    ensures multiset(r) == multiset(s)
  {
    var rest := RemoveAt(s, from);
    RemoveAfterInsert(rest, to, s[from]);
    InsertAt(rest, to, s[from])
  }

  /** Moving an element onto its own position changes nothing. */
  lemma MoveToSelf<T>(s: seq<T>, i: nat)
    requires i < |s|
    ensures Move(s, i, i) == s
  {
    var r := Move(s, i, i);
    assert forall k :: 0 <= k < |s| ==> r[k] == s[k] by {
      forall k | 0 <= k < |s|
        ensures r[k] == s[k]
      {
        if k < i {
          assert RemoveAt(r, i)[k] == RemoveAt(s, i)[k];
        } else if k > i {
          assert RemoveAt(r, i)[k - 1] == RemoveAt(s, i)[k - 1];
        }
      }
    }
  }
}

=== FILE: table_input.dfy ===
/** The wizard's `{Action, Lane}` table editor: it starts new rows on the
    first lane, edits and deletes rows by index, and re-maps rows whose lane
    name has disappeared from the lane list. Each operation returns the row
    list it hands to `onChange`. */
module TableInput {
  import opened Results
  import opened Text
  import opened Seqs
  import opened Types
  import opened Questions

  /** The table's value: `Some(rows)` for an array, `None` for anything else. */
  function RowsIn(value: Option<seq<Row>>): (r: seq<Row>)
    ensures value.Some? ==> r == value.value
    ensures value.None? ==> r == []
  {
    value.GetOr([])
  }

  /** `lanes[0] || ""`: the lane new and orphaned rows are put on. */
  function SafeLane(lanes: seq<string>): (r: string)
    ensures |lanes| > 0 ==> r == lanes[0]
    ensures |lanes| == 0 ==> r == ""
  {
    if |lanes| > 0 then lanes[0] else ""
  }

  /** Every row names a lane of the list. */
  predicate LanesValid(rows: seq<Row>, lanes: seq<string>) {
    forall k :: 0 <= k < |rows| ==> rows[k].lane in lanes
  }

  /** The fix-up: with no lanes the rows are left alone; otherwise a row whose
      lane is not in the list is moved to the first lane, and nothing else
      about any row changes. */
  function FixRows(rows: seq<Row>, lanes: seq<string>): (r: seq<Row>)
    ensures |r| == |rows|
    ensures |lanes| == 0 ==> r == rows
    ensures forall k :: 0 <= k < |rows| ==>
      && r[k].action == rows[k].action
      && (rows[k].lane in lanes ==> r[k].lane == rows[k].lane)
      && (rows[k].lane !in lanes && |lanes| > 0 ==> r[k].lane == lanes[0])
    ensures |lanes| > 0 ==> LanesValid(r, lanes)
    ensures LanesValid(rows, lanes) ==> r == rows
  {
    if |lanes| == 0 then rows
    else
      seq(|rows|, k requires 0 <= k < |rows| =>
        rows[k].(lane := if rows[k].lane in lanes then rows[k].lane else SafeLane(lanes)))
  }

  /** Fixing twice is fixing once. */
  lemma FixRowsIdempotent(rows: seq<Row>, lanes: seq<string>)
    ensures FixRows(FixRows(rows, lanes), lanes) == FixRows(rows, lanes)
  {
  }

  /** The effect run on a lane-list change: the fixed rows are emitted only
      when they differ from the current ones. */
  function FixUp(value: Option<seq<Row>>, lanes: seq<string>): (r: Option<seq<Row>>)
    ensures r.Some? <==> |lanes| > 0 && !LanesValid(RowsIn(value), lanes)
    ensures r.Some? ==> LanesValid(r.value, lanes) && |r.value| == |RowsIn(value)|
    ensures r.Some? ==> r.value == FixRows(RowsIn(value), lanes)
  {
    var rows := RowsIn(value);
    if |lanes| == 0 then None
    else
      var fixed := FixRows(rows, lanes);
      if fixed != rows then Some(fixed)
      else
        assert LanesValid(rows, lanes);
        None
  }

  /** Once fixed, the rows pass the happy-path validator's lane check, so the
      validator accepts them exactly when no Action is blank. */
  lemma FixedRowsPassLaneCheck(rows: seq<Row>, lanes: seq<Lane>)
    requires |lanes| > 0
    ensures var fixed := FixRows(rows, LaneNames(lanes));
      CheckRows(fixed, LaneNames(lanes)).None? <==>
        forall k :: 0 <= k < |rows| ==> Trim(rows[k].action) != ""
  {
    var fixed := FixRows(rows, LaneNames(lanes));
    if forall k :: 0 <= k < |rows| ==> Trim(rows[k].action) != "" {
      assert forall k :: 0 <= k < |fixed| ==> RowOk(fixed[k], LaneNames(lanes));
    }
  }

  /** `add`: a row with a blank Action on the first lane is appended. */
  function AddRow(value: Option<seq<Row>>, lanes: seq<string>): (r: seq<Row>)
    ensures |r| == |RowsIn(value)| + 1
    ensures r[..|RowsIn(value)|] == RowsIn(value)
    ensures r[|RowsIn(value)|] == Row("", SafeLane(lanes))
    ensures |lanes| > 0 && LanesValid(RowsIn(value), lanes) ==> LanesValid(r, lanes)
  {
    RowsIn(value) + [Row("", SafeLane(lanes))]
  }

  /** The two editable columns. */
  datatype Column = ActionColumn | LaneColumn

  /** `{ ...r, [key]: val }`: the chosen column gets `val`, the other keeps
      its value. */
  function SetCell(row: Row, col: Column, val: string): (r: Row)
    ensures col == ActionColumn ==> r.action == val && r.lane == row.lane
    ensures col == LaneColumn ==> r.lane == val && r.action == row.action
  {
    match col
    case ActionColumn => row.(action := val)
    case LaneColumn => row.(lane := val)
  }

  /** `upd`: row `i` gets `val` in column `col`; other rows and the other
      column are untouched, and an index outside the table changes nothing. */
  function UpdRow(value: Option<seq<Row>>, i: int, col: Column, val: string): (r: seq<Row>)
    ensures |r| == |RowsIn(value)|
    ensures forall k :: 0 <= k < |r| && k != i ==> r[k] == RowsIn(value)[k]
    ensures 0 <= i < |r| ==> r[i] == SetCell(RowsIn(value)[i], col, val)
    ensures !(0 <= i < |r|) ==> r == RowsIn(value)
  {
    var rows := RowsIn(value);
    var r := seq(|rows|, k requires 0 <= k < |rows| =>
      if k == i then SetCell(rows[k], col, val) else rows[k]);
    assert !(0 <= i < |rows|) ==> r == rows;
    r
  }

  /** Writing a cell's old content back undoes an edit. */
  lemma UpdRowUndo(rows: seq<Row>, i: int, col: Column, val: string)
    requires 0 <= i < |rows|
    ensures UpdRow(Some(UpdRow(Some(rows), i, col, val)), i, col,
                   if col == ActionColumn then rows[i].action else rows[i].lane) == rows
  {
    var r := UpdRow(Some(UpdRow(Some(rows), i, col, val)), i, col,
                    if col == ActionColumn then rows[i].action else rows[i].lane);
    assert r[i] == rows[i];
  }

  /** Choosing a lane from the list (the select offers only those) keeps every
      row's lane valid. */
  lemma UpdRowKeepsLanesValid(rows: seq<Row>, lanes: seq<string>, i: int, col: Column, val: string)
    requires LanesValid(rows, lanes)
    requires col == LaneColumn ==> val in lanes
    ensures LanesValid(UpdRow(Some(rows), i, col, val), lanes)
  {
    var r := UpdRow(Some(rows), i, col, val);
    forall k | 0 <= k < |r| ensures r[k].lane in lanes {
      if k == i {
        assert r[k] == SetCell(rows[k], col, val);
      }
    }
  }

  /** `del`: drops row `i`; an index outside the table changes nothing. */
  function DelRow(value: Option<seq<Row>>, i: int): (r: seq<Row>)
    ensures 0 <= i < |RowsIn(value)| ==>
      && |r| == |RowsIn(value)| - 1
      && r[..i] == RowsIn(value)[..i]
      && r[i..] == RowsIn(value)[i + 1..]
    ensures !(0 <= i < |RowsIn(value)|) ==> r == RowsIn(value)
    ensures IsSubseq(r, RowsIn(value))
  {
    var rows := RowsIn(value);
    if 0 <= i < |rows| then
      var r := RemoveAt(rows, i);
      RemoveAtIsSubseq(rows, i);
      r
    else
      IsSubseqRefl(rows);
      rows
  }

  /** Deleting the row just added gives back the rows before. */
  lemma DelRowUndoesAddRow(value: Option<seq<Row>>, lanes: seq<string>)
    ensures DelRow(Some(AddRow(value, lanes)), |RowsIn(value)|) == RowsIn(value)
  {
  }
}

=== FILE: text.dfy ===
/** The string primitives the source relies on: JavaScript's `trim`,
    a global single-character `replace`, `startsWith` and `join`. */
module Text {
  import opened Seqs


  /** The whitespace `String.prototype.trim` strips, restricted to a fixed set:
      space, tab, line feed, vertical tab, form feed, carriage return,
      no-break space and the byte-order mark. */
  predicate IsSpace(c: char) {
    c == ' ' || c == '\t' || c == '\n' || c == '\U{000B}' || c == '\U{000C}'
    || c == '\r' || c == '\U{00A0}' || c == '\U{FEFF}'
  }

  /** Neither end of `s` is whitespace. */
  predicate IsTrimmed(s: string) {
    |s| == 0 || (!IsSpace(s[0]) && !IsSpace(s[|s| - 1]))
  }

  /** Every character of `t` is whitespace. */
  predicate AllSpace(t: string) {
    forall k :: 0 <= k < |t| ==> IsSpace(t[k])
  }

  /** `r` is a middle slice of `s` with only whitespace cut off either end:
      nothing inside is dropped, added or reordered. */
  predicate IsStripOf(r: string, s: string) {
    exists i, j :: 0 <= i <= j <= |s| && r == s[i..j] && AllSpace(s[..i]) && AllSpace(s[j..])
  }

  /** `s` without its leading whitespace. */
  function TrimStart(s: string): (r: string)
    ensures |r| <= |s| && r == s[|s| - |r|..]
    ensures forall k :: 0 <= k < |s| - |r| ==> IsSpace(s[k])
    ensures |r| > 0 ==> !IsSpace(r[0])
  {
    if |s| > 0 && IsSpace(s[0]) then
      var r := TrimStart(s[1..]);
      assert s[1..][|s| - 1 - |r|..] == s[|s| - |r|..];
      assert forall k :: 1 <= k < |s| ==> s[k] == s[1..][k - 1];
      r
    else s
  }

  /** `s` without its trailing whitespace. */
  function TrimEnd(s: string): (r: string)
    ensures |r| <= |s| && r == s[..|r|]
    ensures forall k :: |r| <= k < |s| ==> IsSpace(s[k])
    ensures |r| > 0 ==> !IsSpace(r[|r| - 1])
  {
    if |s| > 0 && IsSpace(s[|s| - 1]) then TrimEnd(s[..|s| - 1]) else s
  }

  /** `String.prototype.trim`. */
  function Trim(s: string): (r: string)
    ensures IsTrimmed(r)
    ensures r == "" <==> forall k :: 0 <= k < |s| ==> IsSpace(s[k])
    ensures IsTrimmed(s) ==> r == s
    ensures IsStripOf(r, s)
  {
    TrimEmptyIffAllSpace(s);
    TrimIsStrip(s);
    TrimEnd(TrimStart(s))
  }

  /** Trimming the start and then the end cuts whitespace off the two ends
      and keeps the middle as it is. */
  lemma TrimIsStrip(s: string)
    ensures IsStripOf(TrimEnd(TrimStart(s)), s)
  {
    var a := TrimStart(s);
    var r := TrimEnd(a);
    var i := |s| - |a|;
    SuffixSlices(s, i, |r|);
    SpacePrefix(s, i);
    SpaceSuffix(s, i + |r|);
    StripWitness(r, s, i, i + |r|);
  }

  /** Slicing the suffix `s[i..]` is slicing `s` shifted by `i`. */
  lemma SuffixSlices<T>(s: seq<T>, i: nat, m: nat)
    requires i + m <= |s|
    ensures s[i..][..m] == s[i..i + m]
    ensures forall k :: i + m <= k < |s| ==> s[k] == s[i..][k - i]
  {
  }

  /** A whitespace-only front is an `AllSpace` prefix. */
  lemma SpacePrefix(s: string, i: nat)
    requires i <= |s|
    requires forall k :: 0 <= k < i ==> IsSpace(s[k])
    ensures AllSpace(s[..i])
  {
    forall k | 0 <= k < i
      ensures IsSpace(s[..i][k])
    {
      assert s[..i][k] == s[k];
    }
  }

  /** A whitespace-only back is an `AllSpace` suffix. */
  lemma SpaceSuffix(s: string, j: nat)
    requires j <= |s|
    requires forall k :: j <= k < |s| ==> IsSpace(s[k])
    ensures AllSpace(s[j..])
  {
    forall k | 0 <= k < |s| - j
      ensures IsSpace(s[j..][k])
    {
      assert s[j..][k] == s[j + k];
    }
  }

  /** The bounds `i`, `j` witness `IsStripOf(r, s)`. */
  lemma StripWitness(r: string, s: string, i: nat, j: nat)
    requires i <= j <= |s| && r == s[i..j]
    requires AllSpace(s[..i]) && AllSpace(s[j..])
    ensures IsStripOf(r, s)
  {
  }

  /** Trimming removes whitespace only: every other character keeps its
      number of occurrences, and nothing new appears. */
  lemma TrimKeeps(s: string)
    ensures forall c :: !IsSpace(c) ==> multiset(Trim(s))[c] == multiset(s)[c]
    ensures forall c :: c in Trim(s) ==> c in s
  {
    TrimKeepsNonSpace(s);
  }

  /** A run of whitespace holds no other character. */
  lemma AllSpaceHasNoOther(t: string)
    requires AllSpace(t)
    ensures forall c :: !IsSpace(c) ==> multiset(t)[c] == 0
  {
    forall c | !IsSpace(c)
      ensures multiset(t)[c] == 0
    {
      assert c !in t;
    }
  }

  /** What trimming removes is whitespace only, at the two ends. */
  lemma TrimKeepsNonSpace(s: string)
    ensures forall c :: !IsSpace(c) ==> multiset(TrimEnd(TrimStart(s)))[c] == multiset(s)[c]
    ensures forall c :: c in TrimEnd(TrimStart(s)) ==> c in s
    ensures TrimEnd(TrimStart(s)) == "" <==> forall k :: 0 <= k < |s| ==> IsSpace(s[k])
  {
    var a := TrimStart(s);
    TrimStartKeepsNonSpace(s);
    TrimEndKeepsNonSpace(a);
    TrimEmptyIffAllSpace(s);
    forall c | c in TrimEnd(a)
      ensures c in s
    {
      assert c in a;
    }
  }

  /** Trimming leaves nothing exactly when everything is whitespace. */
  lemma TrimEmptyIffAllSpace(s: string)
    ensures TrimEnd(TrimStart(s)) == "" <==> forall k :: 0 <= k < |s| ==> IsSpace(s[k])
  {
    var a := TrimStart(s);
    var r := TrimEnd(a);
    if r != "" {
      assert !IsSpace(r[0]) && r[0] == s[|s| - |a|];
    }
  }

  /** Trimming the start removes whitespace only. */
  lemma TrimStartKeepsNonSpace(s: string)
    ensures forall c :: !IsSpace(c) ==> multiset(TrimStart(s))[c] == multiset(s)[c]
  {
    var a := TrimStart(s);
    var i := |s| - |a|;
    SpacePrefix(s, i);
    AllSpaceHasNoOther(s[..i]);
    forall c | !IsSpace(c)
      ensures multiset(a)[c] == multiset(s)[c]
    {
      CountSplit(s, i, c);
    }
  }

  /** Trimming the end removes whitespace only. */
  lemma TrimEndKeepsNonSpace(a: string)
    ensures forall c :: !IsSpace(c) ==> multiset(TrimEnd(a))[c] == multiset(a)[c]
  {
    var r := TrimEnd(a);
    var j := |r|;
    SpaceSuffix(a, j);
    AllSpaceHasNoOther(a[j..]);
    forall c | !IsSpace(c)
      ensures multiset(r)[c] == multiset(a)[c]
    {
      CountSplit(a, j, c);
    }
  }


  /** Trimming twice is trimming once. */
  lemma TrimIdempotent(s: string)
    ensures Trim(Trim(s)) == Trim(s)
  {
  }

  /** Every occurrence of the character `c` in `s` replaced by `rep`
      (`s.replace(/c/g, rep)` for a one-character pattern). */
  function Replace(s: string, c: char, rep: string): string {
    if |s| == 0 then ""
    else
      assert s == [s[0]] + s[1..];
      (if s[0] == c then rep else [s[0]]) + Replace(s[1..], c, rep)
  }

  /** What a replacement contains: the characters of `s` other than `c`,
      and those of `rep` when `c` occurred. */
  lemma {:induction false} ReplaceMembers(s: string, c: char, rep: string, d: char)
    ensures d in Replace(s, c, rep) <==> (d in s && d != c) || (c in s && d in rep)
  {
    if |s| > 0 {
      assert s == [s[0]] + s[1..];
      ReplaceMembers(s[1..], c, rep, d);
    }
  }

  /** Replacing is done character by character, so it distributes over
      concatenation. */
  lemma {:induction false} ReplaceAppend(a: string, b: string, c: char, rep: string)
    ensures Replace(a + b, c, rep) == Replace(a, c, rep) + Replace(b, c, rep)
  {
    if |a| == 0 {
      assert a + b == b;
    } else {
      var head := if a[0] == c then rep else [a[0]];
      var x, y := Replace(a[1..], c, rep), Replace(b, c, rep);
      assert (a + b)[0] == a[0] && (a + b)[1..] == a[1..] + b;
      ReplaceStep(a + b, c, rep);
      ReplaceStep(a, c, rep);
      ReplaceAppend(a[1..], b, c, rep);
      assert head + (x + y) == (head + x) + y;
    }
  }

  /** Without an occurrence of `c` there is nothing to replace. */
  lemma {:induction false} ReplaceAbsent(s: string, c: char, rep: string)
    requires c !in s
    ensures Replace(s, c, rep) == s
  {
    if |s| > 0 {
      assert s == [s[0]] + s[1..];
      ReplaceAbsent(s[1..], c, rep);
    }
  }

  /** `Replace` on a single character. */
  lemma ReplaceOne(x: char, c: char, rep: string)
    ensures Replace([x], c, rep) == if x == c then rep else [x]
  {
    assert [x][1..] == [];
  }

  /** One step of `Replace`: the first character, then the rest. */
  lemma ReplaceStep(s: string, c: char, rep: string)
    requires |s| > 0
    ensures Replace(s, c, rep) == (if s[0] == c then rep else [s[0]]) + Replace(s[1..], c, rep)
  {
  }

  /** `s.startsWith(prefix)`. */
  predicate StartsWith(s: string, prefix: string) {
    |prefix| <= |s| && s[..|prefix|] == prefix
  }

  /** `xs.join(sep)`: the items with `sep` between consecutive ones. */
  function Join(xs: seq<string>, sep: string): (r: string)
    ensures |xs| == 0 ==> r == ""
    ensures |xs| == 1 ==> r == xs[0]
    ensures |xs| > 0 ==> StartsWith(r, xs[0])
    ensures |xs| >= 2 ==>
      StartsWith(r, xs[0] + sep) && r[|xs[0]| + |sep|..] == Join(xs[1..], sep)
  {
    if |xs| == 0 then ""
    else if |xs| == 1 then xs[0]
    else xs[0] + sep + Join(xs[1..], sep)
  }

  /** A joined string holds exactly the characters of the items, and those
      of the separator when there are at least two items. */
  lemma {:induction false} JoinMembers(xs: seq<string>, sep: string, c: char)
    ensures c in Join(xs, sep) <==>
      (exists k :: 0 <= k < |xs| && c in xs[k]) || (|xs| >= 2 && c in sep)
  {
    if |xs| == 1 {
      if c in xs[0] {
        assert 0 < |xs|;
      }
    } else if |xs| >= 2 {
      var rest := xs[1..];
      JoinMembers(rest, sep, c);
      assert Join(xs, sep) == xs[0] + sep + Join(rest, sep);
      if exists k :: 0 <= k < |rest| && c in rest[k] {
        var k :| 0 <= k < |rest| && c in rest[k];
        assert c in xs[k + 1];
      }
      if exists k :: 0 <= k < |xs| && c in xs[k] {
        var k :| 0 <= k < |xs| && c in xs[k];
        if k > 0 {
          assert c in rest[k - 1];
        }
      }
    }
  }
}

=== FILE: types.dfy ===
/** The shared data shapes: lanes, steps and the process model, plus the
    untyped answer values the wizard receives from its form controls. */
module Types {
  import opened Results

  /** A responsible team or role; `id` is its identity, `name` is shown. */
  datatype Lane = Lane(id: string, name: string)

  /** One unit of work (`text` is the source's `label`); `laneId` refers to a `Lane.id` without owning it.
      Steps are ordered by their position in the step sequence. */
  datatype Step = Step(id: string, text: string, laneId: string)

  /** One row of the wizard's `{Action, Lane}` table; `lane` holds a lane
      NAME, not an id. */
  datatype Row = Row(action: string, lane: string)

  /** A raw answer as a question's callbacks receive it (typed `any` in the
      source): a text field's string, a multi-value list of strings, the
      table's rows, or nothing (`undefined`). `Items([])` and `Rows([])` both
      stand for the one empty array `[]`; every coercion treats them alike. */
  datatype Raw = Text(s: string) | Items(xs: seq<string>) | Rows(rows: seq<Row>) | Absent {
    /** `Array.isArray(value)`. */
    predicate IsArray() {
      Items? || Rows?
    }
  }

  /** The snapshot the wizard builds. `metrics` holds the submitted array
      unconverted, as the source stores it. */
  datatype ProcessModel = ProcessModel(
    name: string,
    goal: string,
    trigger: string,
    lanes: seq<Lane>,
    steps: seq<Step>,
    metrics: Option<Raw>)

  /** Some lane has the id `id`. */
  predicate HasLane(lanes: seq<Lane>, id: string) {
    exists l :: l in lanes && l.id == id
  }

  /** The ids of `lanes`, in order (`lanes.map((l) => l.id)`). */
  function LaneIds(lanes: seq<Lane>): (r: seq<string>)
    ensures |r| == |lanes|
    ensures forall k :: 0 <= k < |lanes| ==> r[k] == lanes[k].id
    ensures forall id :: id in r <==> HasLane(lanes, id)
  {
    var r := seq(|lanes|, k requires 0 <= k < |lanes| => lanes[k].id);
    assert forall l :: l in lanes ==> l.id in r by {
      forall l | l in lanes ensures l.id in r {
        var k :| 0 <= k < |lanes| && lanes[k] == l;
        assert r[k] == l.id;
      }
    }
    r
  }

  /** The names of `lanes`, in order. */
  function LaneNames(lanes: seq<Lane>): (r: seq<string>)
    ensures |r| == |lanes|
    ensures forall k :: 0 <= k < |lanes| ==> r[k] == lanes[k].name
  {
    seq(|lanes|, k requires 0 <= k < |lanes| => lanes[k].name)
  }

  /** No two lanes share an id (what the random `uid` supply is relied on
      for). */
  predicate DistinctLaneIds(lanes: seq<Lane>) {
    forall i, j :: 0 <= i < j < |lanes| ==> lanes[i].id != lanes[j].id
  }

  /** Every step refers to a lane that exists. */
  predicate StepsReferToLanes(lanes: seq<Lane>, steps: seq<Step>) {
    forall s :: s in steps ==> HasLane(lanes, s.laneId)
  }
}
